=== FILE: README.md ===
# Heatmap and blob-sizing model

A Dafny model of the browser-side heatmap of the Diffa reconciliation agent
(`agent/src/main/webapp/js/heatmap.js`) and of its blob-sizing helpers
(`agent/src/main/webapp/js/viz.js`). The model covers:

- **Blobs** is the data model. It merges each poll response into the swimlane labels and the bucket matrix. It also covers polling on and off, the timer tick, and zooming the bucket width.
- **Geometry** maps between pixel points and (swimlane row, bucket column) cells on the 96-column grid. A lane is 78 px high and a cell is 30 px wide.
- **Heatmap** holds the renderer's decisions:
  - the `limit` clamp applied to bucket values;
  - the boundary cell whose blob is still visible;
  - the scan for data beyond the viewport, which decides the arrow cues;
  - the circle drawn per cell;
  - the hover value;
  - the time-axis ticks.
- **Interaction** is the view's state machine. Its state is the drag state, the pan offset and the right pan limit, together with the data model it observes. It handles pointer down, move, over and up, the polling toggle, the redraw (`update`) that model changes trigger, and the router hand-off of a click.
- **ZoomControls** holds the zoom guards and the `+`/`-` keyboard handler.
- **Diffs** is the difference list's paging and selection state machine, with the network abstracted as "a response arrives".
- **Viz** holds the logarithmic transfer function and the `limit` helper, over the reals.

Times are integer milliseconds, and navigation hashes are tuples. A poll response is an ordered association list in the order `for … in` enumerates its keys, because that order decides where new swimlanes go. A key bound twice keeps its last binding, as `JSON.parse` does. `Math.log` is a parameter `log: real -> real`. The lemmas assume only `LogLike`: log(1) = 0, log(100) > 0, and log is monotone.

Behaviours of the code worth noting, each of which the model follows:

- `drawCircle` uses the raw count, capped at 14, as the radius. It does not use the logarithmic transfer function.
- A poll never shrinks the reserved row count `maxRows`. A dropped pair's row becomes a zero padding row (`Blobs.DroppedPairKeepsRows`).
- A click hitting the polling label still navigates. The toggle is not an alternative to navigation.
- Every pointer move without a drag clears the overlay, so hovering outside the grid shows no value. The view's `highlighted` field still keeps the last cell inside the grid, and `Interaction.MouseOver` models that field.
- The zoom buttons call `zoomIn`/`zoomOut` without the guards. Only the keyboard checks them. The guards are `bucketSize > 1` and `bucketSize < 180·24·3600`, and their comments at lines 839 and 842 say buckets can be neither narrower than 1 s nor wider than six months. A guarded doubling from just under 180 days still gives a width of up to 360 days (`ZoomControls.ShouldAllowMoreZoomOut`).
- `Math.round(b/2)` is `(b+1)/2`. So zooming in at one second stays at one second.
- Changing the polling flag fires `update` synchronously, which resets the pan offset to `-rightLimit`. So the first drag step after polling was on starts from the newest bucket. A click that toggles polling navigates using the reset offset.
- Before the first poll answers, the matrix is empty while 10 rows are reserved, so `Consistent(Initial(h))` does not hold and the grid cannot be drawn. Any redraw then throws a TypeError when it reads a missing row. The handlers model this in their as-written forms, `Interaction.MouseMoveAsWritten` and `Interaction.MouseUpAsWritten` (see Findings).
- The view object defines `mouseDown` twice. The second definition, which writes `this.dragging`, wins.

## Model

| member | source | states |
|---|---|---|
| Viz.TransformBucketSize | agent/src/main/webapp/js/viz.js:33-45 | 0 maps to 0; every non-zero size up to 1, negatives included, maps to the floor 2; size 100 maps exactly to the maximum; above 1, (f(s) − 2)·log 100 = (M − 2)·log s |
| Viz.TransformAtLeastFloor | agent/src/main/webapp/js/viz.js:34-44 | with M ≥ 2 and a monotone log vanishing at 1, every non-zero size gets at least the floor size 2 |
| Viz.TransformMonotone | agent/src/main/webapp/js/viz.js:22-44 | on sizes ≥ 1 the blob size never decreases as the count grows |
| Viz.TransformUncapped | agent/src/main/webapp/js/viz.js:12-44 | sizes above 100 map to at least the maximum: the function itself does not cap, the caller must |
| Viz.Limit | agent/src/main/webapp/js/viz.js:47-57 | the value is min(v, m), and `limited` holds iff v > m |
| Viz.LimitIdempotent | agent/src/main/webapp/js/viz.js:52-57 | limiting a limited value again returns it unchanged with `limited` false |
| Geometry.CoordsToCell | agent/src/main/webapp/js/heatmap.js:673-678 | the cell is the floor of the point: row·78 ≤ y < (row+1)·78 and column·30 ≤ x < (column+1)·30, for any integer point |
| Geometry.CellToCoords | agent/src/main/webapp/js/heatmap.js:680-685 | round trip: mapping a cell's corner back gives the same cell, for every integer cell |
| Geometry.CellCornerNearPoint | agent/src/main/webapp/js/heatmap.js:673-685 | the corner of a point's cell is at most the point, and less than one cell (30 px, 78 px) away from it |
| Blobs.Initial | agent/src/main/webapp/js/heatmap.js:63-75 | the model starts polling, with width 3600 s, 10 reserved rows, no labels and an empty matrix; its window ends 96 buckets later at the next hour |
| Blobs.Lookup | agent/src/main/webapp/js/heatmap.js:106 | `data[key]` finds a series exactly for the response's keys, and the series found is bound to that key |
| Blobs.AddUnseen | agent/src/main/webapp/js/heatmap.js:92-97 | the label loop keeps the old labels as a prefix and ends with exactly the old labels plus the response keys |
| Blobs.AddUnseenAddsNew | agent/src/main/webapp/js/heatmap.js:92-97 | every appended label is a response key that was not a label before |
| Blobs.AddUnseenNoDup | agent/src/main/webapp/js/heatmap.js:92-97 | the label loop introduces no duplicate |
| Blobs.AddUnseenOrder | agent/src/main/webapp/js/heatmap.js:92-97 | appended labels follow the order of their first appearance among the response keys |
| Blobs.Keep | agent/src/main/webapp/js/heatmap.js:98-99 | the filter keeps exactly the labels that are response keys and introduces no duplicate |
| Blobs.KeepIsSubsequence | agent/src/main/webapp/js/heatmap.js:98-99 | the filter's result is a subsequence of the labels, so kept labels stay in their order |
| Blobs.MergedLabelsOrder | agent/src/main/webapp/js/heatmap.js:88-99 | new labels = old labels still present, in old order, followed by never-seen keys in first-appearance order |
| Blobs.MergedLabelsAreKeys | agent/src/main/webapp/js/heatmap.js:88-99 | after a poll the labels are exactly the response keys, and no duplicate is introduced |
| Blobs.Row | agent/src/main/webapp/js/heatmap.js:105-118 | a row is the series truncated to 96 entries or zero-padded to 96, and all zeros when the pair is absent |
| Blobs.Merge | agent/src/main/webapp/js/heatmap.js:87-123 | maxRows' = max(maxRows, labels'), so it never shrinks; the matrix has maxRows' rows of 96; label rows hold that label's series; all other rows are zero; the start time is the one requested |
| Blobs.MergeConsistent | agent/src/main/webapp/js/heatmap.js:88-122 | every poll re-establishes the matrix invariant: shape, labels within the reserved rows, no duplicate labels, zero padding |
| Blobs.DroppedPairKeepsRows | agent/src/main/webapp/js/heatmap.js:98-119 | polling {a, b} and then {a} leaves the labels [a]; the reserved rows stay 10; b's old row is zeroed |
| Blobs.MergeAsWritten | agent/src/main/webapp/js/heatmap.js:104-119 | as written, every row past the labels holds the series of a pair named "undefined" |
| Blobs.MergeAsWrittenAgrees | agent/src/main/webapp/js/heatmap.js:104-119 | without a pair named "undefined" the code as written equals the corrected merge |
| Blobs.UndefinedPairFillsPadding | agent/src/main/webapp/js/heatmap.js:105-110 | a response {"undefined": [5]} puts 5 into padding row 1 as written; the corrected merge keeps 0 there |
| Blobs.Window | agent/src/main/webapp/js/heatmap.js:77-87 | a sync asks for exactly 96 buckets of the current width, ending at the next hour |
| Blobs.PeriodicSync | agent/src/main/webapp/js/heatmap.js:126-129 | the timer issues a sync iff polling is on, for the 96 buckets of the current width that end at the hour |
| Blobs.StartPolling | agent/src/main/webapp/js/heatmap.js:131-133 | polling is on afterwards and nothing else changes |
| Blobs.StopPolling | agent/src/main/webapp/js/heatmap.js:135-137 | polling is off afterwards and nothing else changes |
| Blobs.RoundHalf | agent/src/main/webapp/js/heatmap.js:144 | the result is the integer within half a unit of b/2, ties rounding up, as `Math.round` does |
| Blobs.ZoomOut | agent/src/main/webapp/js/heatmap.js:139-142 | doubles the bucket width, changes nothing else, and syncs at once for the 96 buckets of the new width that end at the hour |
| Blobs.ZoomIn | agent/src/main/webapp/js/heatmap.js:143-146 | sets the width to round(b/2), changes nothing else, and syncs at once for the 96 buckets of the new width that end at the hour |
| Blobs.ZoomInUndoesZoomOut | agent/src/main/webapp/js/heatmap.js:139-146 | zoomIn(zoomOut(m)) = m |
| Blobs.ZoomOutAfterZoomIn | agent/src/main/webapp/js/heatmap.js:139-146 | zoomOut(zoomIn(b)) is b for even b and b + 1 for odd b |
| Blobs.ZoomInKeepsPositive | agent/src/main/webapp/js/heatmap.js:143-146 | a width ≥ 1 stays ≥ 1 under zoomIn, and a width > 1 strictly shrinks |
| ZoomControls.KeyPress | agent/src/main/webapp/js/heatmap.js:811-843 | `+` zooms in iff b > 1 and `-` zooms out iff b < 180·24·3600; a zoom is exactly the model's zoomIn (width round(b/2)) or zoomOut (width 2b) with its sync; otherwise nothing changes and no sync is issued |
| ZoomControls.ShouldAllowMoreZoomIn | agent/src/main/webapp/js/heatmap.js:838-840 | when it allows a zoom in, the zoomed width is at least 1 s and narrower than the current one; it refuses only at widths of 1 s or less |
| ZoomControls.ShouldAllowMoreZoomOut | agent/src/main/webapp/js/heatmap.js:841-843 | when it allows a zoom out from a positive width, the zoomed width is wider than the current one and below 2·180 days; it refuses only at widths of 180 days or more |
| ZoomControls.KeyboardZoomStaysBounded | agent/src/main/webapp/js/heatmap.js:811-843 | under any key sequence the width stays in [1, 2·180·24·3600) |
| Heatmap.BucketAt | agent/src/main/webapp/js/heatmap.js:632 | indexing a row yields the count inside the row and `undefined` outside it |
| Heatmap.Limit | agent/src/main/webapp/js/heatmap.js:692-697 | value = min(v, m) and `limited` iff v > m; `undefined` comes back as (m, limited) |
| Heatmap.FindCellWithVisibleBlob | agent/src/main/webapp/js/heatmap.js:630-644 | keeps the row; `left` moves the column only by +1, `right` only by −1; it moves exactly when the boundary blob lies wholly outside the viewport |
| Heatmap.EmptyBoundaryCellStays | agent/src/main/webapp/js/heatmap.js:630-644 | a zero bucket at the boundary leaves the cell unchanged |
| Heatmap.NudgeOnlyPastCenter | agent/src/main/webapp/js/heatmap.js:630-644 | a nudge happens only when the boundary is past the cell's centre, on the side away from the viewport |
| Heatmap.NonEmptyCellExists | agent/src/main/webapp/js/heatmap.js:646-653 | true iff some column in [start, end) of the row holds a positive count |
| Heatmap.LaneArrows | agent/src/main/webapp/js/heatmap.js:467-491 | a left or right arrow is drawn only if data lies at or beyond the boundary column, and always if data lies strictly beyond it; exactly when a non-zero column lies strictly beyond the boundary column, or the boundary column is non-zero and its circle (radius min(count, 14)) lies wholly outside the visible region |
| Heatmap.DrawCircle | agent/src/main/webapp/js/heatmap.js:560-580 | a circle is drawn iff the cell is in the reserved grid and its count is positive; radius = min(count, 14); outline 2 iff the count exceeds 14 |
| Heatmap.OverlayValue | agent/src/main/webapp/js/heatmap.js:611-623 | the highlighted cell's count is shown iff it is positive |
| Heatmap.ScaleTicks | agent/src/main/webapp/js/heatmap.js:513-523 | 32 ticks, one every third column, each showing its bucket's start time |
| Interaction.Update | agent/src/main/webapp/js/heatmap.js:391-415 | rightLimit = 96·30 − canvas width and the offset becomes −rightLimit; nothing else changes |
| Interaction.SetPolling | agent/src/main/webapp/js/heatmap.js:364-366 | the flag is set; an actual change fires `update`, and no change leaves everything as it was |
| Interaction.TogglePolling | agent/src/main/webapp/js/heatmap.js:708-718 | polling flips iff the point is right of toggleX and above toggleY; a flip redraws exactly as `update` does, scrolling to the newest bucket; a miss changes nothing; the width never changes |
| Interaction.Clamp | agent/src/main/webapp/js/heatmap.js:762-769 | the offset ox + delta is kept when it lies in [−rightLimit, 0]; above 0 it becomes 0; below −rightLimit it becomes −rightLimit; a negative rightLimit always gives −rightLimit |
| Interaction.MouseDown | agent/src/main/webapp/js/heatmap.js:720-725 | a drag starts at the point with `dragged` false; nothing else changes |
| Interaction.Drawable | agent/src/main/webapp/js/heatmap.js:475-511 | true exactly when every row `drawGrid` reads exists: every drawn lane (at least 5), and the reserved rows up to one past the lanes, because the canvas is 10 px taller than its lanes |
| Interaction.MouseOver | agent/src/main/webapp/js/heatmap.js:782-791 | highlights the cell under the shifted pointer when it is inside the grid, and otherwise changes nothing |
| Interaction.MouseMove | agent/src/main/webapp/js/heatmap.js:755-780 | a drag move stops polling, sets `dragged`, moves the drag point and keeps the highlighted cell; the offset is the clamped ox + Δx, where ox and rightLimit are the ones `update` resets when polling was on; without a drag it hovers; the width never changes |
| Interaction.LabelAt | agent/src/main/webapp/js/heatmap.js:737 | the pair at a row, absent outside the labels |
| Interaction.MouseUp | agent/src/main/webapp/js/heatmap.js:727-753 | the drag always ends; a click on a canvas flips polling iff it hits the label, then navigates to the pair at row ⌊y/78⌋ (possibly absent) and column ⌊(x − offset)/30⌋ with the post-toggle offset, over one bucket from startTime + column·bucketSize·1000; after a drag polling becomes polling ∨ \|offset\| ≥ rightLimit, a drag that resumes polling scrolls to −rightLimit, and nothing navigates; rightLimit is reset exactly when polling changes; width and the highlighted cell never change |
| Interaction.InitialApp | agent/src/main/webapp/js/heatmap.js:63-75 | the page starts idle with offset 0 over the initial model, whose grid cannot be drawn |
| Interaction.PollMakesDrawable | agent/src/main/webapp/js/heatmap.js:100-122 | with at least 5 reserved rows, every poll leaves a drawable grid and keeps at least 5 rows |
| Interaction.MouseMoveAsWritten | agent/src/main/webapp/js/heatmap.js:755-774 | over an undrawable grid a drag step stops at the throw: with polling on, after stopping polling and the offset reset, with `dragged` unchanged; with polling off, after the pan; the drag point never advances; otherwise it equals MouseMove |
| Interaction.MouseUpAsWritten | agent/src/main/webapp/js/heatmap.js:727-753 | when a polling change meets an undrawable grid, nothing navigates and `dragged` keeps its value, the rest as MouseUp; otherwise it equals MouseUp |
| Interaction.DragBeforeFirstPollIsClick | agent/src/main/webapp/js/heatmap.js:727-774 | as written, down at (100,100), a single move event to (80,100) and release on the initial page: `dragged` stays false, the release navigates to an absent pair, and polling stays off |
| Interaction.SlowDragBeforeFirstPollIsDrag | agent/src/main/webapp/js/heatmap.js:727-774 | as written, the same drag delivered as two move events, to (90,100) and then (80,100), sets `dragged`, and the release does not navigate |
| Interaction.DragBeforeFirstPollPans | agent/src/main/webapp/js/heatmap.js:727-774 | the same gesture through MouseMove and MouseUp: it is a drag, nothing navigates, polling resumes, and the offset is −rightLimit |
| Interaction.ReceiveBuckets | agent/src/main/webapp/js/heatmap.js:121-122 | the model becomes the merge; the view redraws iff the matrix or the row count changed; the width never changes |
| Interaction.GestureKeepsPanInLimits | agent/src/main/webapp/js/heatmap.js:720-774 | a whole gesture of pointer down, any moves and release keeps the offset in [−rightLimit, 0] and ends the drag; with at least one move it does not navigate, and polling is then on exactly when the offset is −rightLimit |
| Interaction.DragStaysInLimits | agent/src/main/webapp/js/heatmap.js:755-774 | across any sequence of drag moves the offset stays in [−rightLimit, 0], with `dragged` set and polling off |
| Interaction.DragPreservesFlags | agent/src/main/webapp/js/heatmap.js:755-774 | further drag moves keep `dragged` set and polling off |
| Interaction.Route | agent/src/main/webapp/js/heatmap.js:52-55 | a navigation makes the list show that pair and range from page 0, requesting offset 0 |
| Interaction.ClickSelectsBucketHour | agent/src/main/webapp/js/heatmap.js:736-744 | with hourly buckets, a click in column 5 navigates to [start + 5 h, start + 6 h) |
| Interaction.DragScenario | agent/src/main/webapp/js/heatmap.js:720-774 | down at (100,100), move to (80,100), release: the offset drops by 20 and there is no navigation |
| Diffs.PageCount | agent/src/main/webapp/js/heatmap.js:249 | totalPages = ceil(total/20): the fewest pages of 20 that hold the total |
| Diffs.IndexOf | agent/src/main/webapp/js/heatmap.js:308 | the first position of the id (no earlier event has it), and −1 iff the id is absent |
| Diffs.Sync | agent/src/main/webapp/js/heatmap.js:232-241 | with no range the list empties; otherwise the current page is requested at offset page·20 |
| Diffs.SetPage | agent/src/main/webapp/js/heatmap.js:327-334 | unless the page is unchanged and the move is not forced, it moves to the page and requests that page's `ListSize` events at offset page·`ListSize` for the selected range; with no range selected it clears the events and requests nothing |
| Diffs.NextPage | agent/src/main/webapp/js/heatmap.js:319-321 | advances exactly when page < totalPages, so it can reach totalPages but never more; an advance changes only the page (and empties the list without a range) and requests that page forced, 20 events at offset page·20 |
| Diffs.PreviousPage | agent/src/main/webapp/js/heatmap.js:323-325 | goes back exactly when page > 0, so it never goes below 0; a step back changes only the page (and empties the list without a range) and requests that page forced, 20 events at offset page·20 |
| Diffs.Select | agent/src/main/webapp/js/heatmap.js:284-291 | sets the range and goes to page 0, changing nothing else, and issues a forced fetch of 20 events at offset 0 |
| Diffs.SelectEvent | agent/src/main/webapp/js/heatmap.js:293-296 | selects the id iff it is on the page, and clears the selection otherwise |
| Diffs.SelectEventWithOffset | agent/src/main/webapp/js/heatmap.js:306-317 | with a selection and (indexOf + offset) in [0, length), that event becomes selected; otherwise nothing changes; with no selection nothing happens |
| Diffs.Receive | agent/src/main/webapp/js/heatmap.js:242-280 | a non-forced response with the last seqId changes nothing; otherwise events and totals follow the response (totalPages = ceil(total/20)), the selection stays if still on the page and else falls back to the first event or none, a page ≥ totalPages > 0 becomes totalPages − 1 and that page is fetched, forced, 20 events at offset page·20, and the seqId is recorded |
| Diffs.ClampedPageFetchIsInRange | agent/src/main/webapp/js/heatmap.js:274-277 | the page fetched after the clamp starts inside the event count |
| Diffs.RunKeepsValid | agent/src/main/webapp/js/heatmap.js:232-334 | under any sequence of operations the page stays ≥ 0 and totalPages stays ceil(totalEvents/20) |
| Diffs.NextPastLastPageIsPulledBack | agent/src/main/webapp/js/heatmap.js:274-277 | stepping past the last page is undone by the next response with the same total |

## Findings

| source | as written | input that shows it | evidently intended | confidence | as-written member | corrected member |
|---|---|---|---|---|---|---|
| agent/src/main/webapp/js/heatmap.js:105-110 | rows `i ≥ labels.length` read `data[swimlaneLabels[i]]`, that is `data[undefined]`, which is the property `"undefined"` | a poll response `{"undefined": [5]}` with the initial 10 reserved rows: rows 1 to 9 are filled with `[5, 0, …]` | padding rows are all zero | high (follows from JavaScript property-key conversion), not executed | Blobs.UndefinedPairFillsPadding | Blobs.MergeConsistent |
| agent/src/main/webapp/js/heatmap.js:755-774 | before the first poll answers, the matrix is `[]`, and every `drawGrid` throws on the first lane's missing row (line 632); a drag step's `stopPolling` fires `update`, which throws before `dragged = true` | page load, then pointer down at (100,100), a drag to (80,100) that the browser delivers as a single mousemove event, and release before the first response: the release is taken as a click and navigates to `blobs/undefined/…`, and polling stays off; delivered as two or more move events, the drag is recognised (`Interaction.SlowDragBeforeFirstPollIsDrag`) | the gesture pans the grid and does not navigate, as it does once a poll has answered | low (needs the whole gesture inside the first poll's round trip and arriving as one move event), not executed | Interaction.DragBeforeFirstPollIsClick | Interaction.DragBeforeFirstPollPans |

`Blobs.MergeAsWritten` models the callback as written. `Blobs.Merge` is the corrected callback, and the rest of the model uses it.

`Interaction.MouseMoveAsWritten` and `Interaction.MouseUpAsWritten` model the handlers as written, including the throw. `Interaction.MouseMove` and `Interaction.MouseUp` behave as if the grid could always be drawn, and the rest of the model uses them. The two agree once the grid is drawable, which every poll ensures (`Interaction.PollMakesDrawable`).

## Left out

- Canvas painting is not modelled: grid lines, dashed lines, arrow shapes, arcs, strokes, fills, fonts, text, layer creation and resizing. Only the decisions that painting depends on are modelled.
- Text measurement is not modelled. The polling label's hit region is an input to `Interaction.MouseUp`.
- Networking and timers are not modelled: `$.getJSON`, `$.ajax`, `setInterval`, Backbone event binding. A request is a returned value, and a response is an explicit transition.
- Blobs.Merge: its `start` is an argument. In the source, `startTime` and `endTime` are implicit globals, and the success callback reads `startTime` when the response arrives, so the value is the start of the most recently issued sync. For example, a poll at 3600 s is in flight when `zoomOut` issues a sync at 7200 s: the 3600-s matrix is then stored with the 7200-s window's start, even when responses arrive in order. In-flight requests are not tracked, so out-of-order and overlapping polls are not modelled.
- The wall clock is not modelled. `nearestHour` is the parameter `hour`, and date formatting is left out.
- `Diff.retrieveDetails` (the abort-on-supersede content fetch), `ignore`, and the action list are not modelled. They are asynchronous I/O with no state the list keeps.
- The list views (`DiffList`, `DiffListItem`, `DiffDetail`) and `ZoomControls.render` are not modelled. They only render, and `render`'s `"changed:bucketSize"` binding never fires.
- Blobs.Keys: the association list is taken to be in the order `for … in` enumerates. In JavaScript, integer-like keys such as "7" or "42" enumerate first, in ascending order, before all other keys in insertion order. The model does not derive that order from the JSON text, so pairs named like integers are appended in the order given, not the order the source would use.
- Properties a pair key inherits from `Object.prototype` are not modelled. For example, a label `"toString"` would survive the `$.grep` filter.
- `JSON` `null` entries inside a series are not modelled, since series are integer sequences. Pixel coordinates are integers, so fractional coordinates are not modelled.
- Bucket widths and times are unbounded integers. In the source they are doubles, and the zoom buttons double the width without a guard (the buttons are disabled only when the controls render), so after about 25 unguarded clicks the window's start leaves the range of `Date` (±8.64·10^15 ms) and the sync sends an invalid date. The model never reaches that point.
- Viz.TransformBucketSize: `Math.log` is a real-valued parameter. IEEE rounding, and a maximum below 2, are not modelled.
- Heatmap.FindCellWithVisibleBlob: requires the row it reads to exist. In the source, reading a missing row throws a TypeError, which `Interaction.Drawable` and the as-written handlers model.
- Heatmap.LaneArrows: requires the lane's row to exist. In the source, reading a missing row throws a TypeError, which `Interaction.Drawable` and the as-written handlers model.
- Heatmap.NonEmptyCellExists: requires the row to exist when the column range is non-empty, for the same reason.
- Heatmap.DrawCircle: requires every reserved row it reads to exist, for the same reason.
- Heatmap.OverlayValue: requires the highlighted row to exist. In the source, reading a missing row throws after `highlighted` is set, so the view's state matches `Interaction.MouseOver`.
- Interaction.Route: navigates on every click. Backbone's `navigate` does nothing when the hash is unchanged, so a second click on the same bucket does not reset the list to page 0 in the source, while the model routes again.
- Interaction.ReceiveBuckets: assumes Backbone fires `change:buckets` only when the new matrix differs in value from the old one.

=== FILE: blobs.dfy ===
/** The heatmap's data model: swimlane labels, the bucket matrix, the bucket
    width, the polling flag and the start of the displayed window.

    Times are integer milliseconds. A poll response (an object from pair key
    to series) is an association list, because the order in which its keys
    enumerate decides the order in which new swimlanes are appended. */
module Blobs {
  import opened Util
  import opened Geometry

  /** Initial bucket width, in seconds. */
  const DefaultBucketSize: int := 3600
  /** The property name JavaScript uses when an object is indexed by `undefined`. */
  const UndefinedKey: string := "undefined"

  /** One poll response, keys in enumeration order. */
  type Response = seq<(string, seq<int>)>

  datatype BlobsModel = BlobsModel(
    bucketSize: int,          // seconds per bucket
    labels: seq<string>,      // one pair key per swimlane, top to bottom
    buckets: seq<seq<int>>,   // rows of per-bucket counts
    maxRows: nat,             // rows the heatmap reserves
    polling: bool,
    startTime: int)           // ms, start of the first bucket

  /** A request for bucketed counts over `[start, end)`. */
  datatype SyncRequest = SyncRequest(start: int, end: int, bucketing: int)

  /** The model at page load, `hour` being the next whole hour. */
  function Initial(hour: int): (m: BlobsModel)
    ensures m.polling && m.labels == [] && m.buckets == []
    ensures m.bucketSize == 3600 && m.maxRows == 10
    ensures m.startTime + MaxColumns * m.bucketSize * 1000 == hour
  {
    BlobsModel(DefaultBucketSize, [], [], DefaultMaxRows, true,
               hour - DefaultBucketSize * MaxColumns * 1000)
  }

  // ---------------------------------------------------------------------
  // Responses

  function Keys(resp: Response): seq<string> {
    seq(|resp|, i requires 0 <= i < |resp| => resp[i].0)
  }

  /** `data[key]`: the series bound to `key`; a key bound twice keeps its last binding. */
  function Lookup(resp: Response, key: string): (v: Option<seq<int>>)
    ensures v.Some? <==> key in Keys(resp)
    ensures v.Some? ==> (key, v.value) in resp
    decreases |resp|
  {
    if resp == [] then None
    else
      var init := resp[..|resp| - 1];
      assert Keys(resp) == Keys(init) + [resp[|resp| - 1].0];
      if resp[|resp| - 1].0 == key then Some(resp[|resp| - 1].1)
      else
        assert forall p :: p in init ==> p in resp;
        Lookup(init, key)
  }

  /** Position of the first occurrence of `x` in `s`. */
  function FirstIndex(s: seq<string>, x: string): (k: nat)
    requires x in s
    ensures k < |s| && s[k] == x && x !in s[..k]
  {
    if s[0] == x then 0
    else
      var k := 1 + FirstIndex(s[1..], x);
      assert s[..k] == [s[0]] + s[1..][..k - 1];
      k
  }

  // ---------------------------------------------------------------------
  // Swimlane labels

  /** The loop that pushes every response key not yet present: `labels`
      stays a prefix and exactly the keys are added. */
  function AddUnseen(labels: seq<string>, keys: seq<string>): (r: seq<string>)
    ensures |labels| <= |r| && r[..|labels|] == labels
    ensures forall x :: x in r <==> x in labels || x in keys
    decreases |keys|
  {
    if keys == [] then labels
    else
      var k := keys[0];
      var labels' := if k in labels then labels else labels + [k];
      var r := AddUnseen(labels', keys[1..]);
      assert r[..|labels|] == r[..|labels'|][..|labels|];
      assert forall x :: x in keys <==> x == k || x in keys[1..] by {
        assert keys == [k] + keys[1..];
      }
      r
  }

  /** Every entry of `r` past the prefix `labels` is a key that is not a label. */
  predicate AppendsOnlyNewKeys(labels: seq<string>, keys: seq<string>, r: seq<string>) {
    forall i :: |labels| <= i < |r| ==> r[i] !in labels && r[i] in keys
  }

  /** The entries of `r` past the prefix `labels` are keys in order of first appearance. */
  predicate AppendsInKeyOrder(labels: seq<string>, keys: seq<string>, r: seq<string>) {
    forall i, j :: |labels| <= i < j < |r| ==>
      r[i] in keys && r[j] in keys && FirstIndex(keys, r[i]) < FirstIndex(keys, r[j])
  }

  /** Every label `AddUnseen` appends is a key that was not a label. */
  lemma {:induction false} AddUnseenAddsNew(labels: seq<string>, keys: seq<string>)
    ensures AppendsOnlyNewKeys(labels, keys, AddUnseen(labels, keys))
    decreases |keys|
  {
    if keys != [] {
      var k := keys[0];
      var labels' := if k in labels then labels else labels + [k];
      AddUnseenAddsNew(labels', keys[1..]);
      var r := AddUnseen(labels', keys[1..]);
      assert r == AddUnseen(labels, keys);
      assert keys == [k] + keys[1..];
      forall i | |labels| <= i < |r| ensures r[i] !in labels && r[i] in keys {
        if i < |labels'| {
          assert r[i] == r[..|labels'|][i] == labels'[i] == k;
        } else {
          assert r[i] !in labels' && r[i] in keys[1..];
          assert forall x :: x in labels ==> x in labels';
        }
      }
    }
  }

  /** `AddUnseen` introduces no duplicate. */
  lemma {:induction false} AddUnseenNoDup(labels: seq<string>, keys: seq<string>)
    requires NoDup(labels)
    ensures NoDup(AddUnseen(labels, keys))
    decreases |keys|
  {
    if keys != [] {
      var k := keys[0];
      var labels' := if k in labels then labels else labels + [k];
      assert NoDup(labels');
      AddUnseenNoDup(labels', keys[1..]);
    }
  }

  /** The labels `AddUnseen` appends come in order of first appearance among the keys. */
  lemma {:induction false} AddUnseenOrder(labels: seq<string>, keys: seq<string>)
    ensures AppendsInKeyOrder(labels, keys, AddUnseen(labels, keys))
    decreases |keys|
  {
    if keys != [] {
      var k := keys[0];
      var rest := keys[1..];
      var labels' := if k in labels then labels else labels + [k];
      var r := AddUnseen(labels', rest);
      assert r == AddUnseen(labels, keys);
      AddUnseenOrder(labels', rest);
      AddUnseenAddsNew(labels', rest);
      assert keys == [k] + rest;
      forall i, j | |labels| <= i < j < |r|
        ensures r[i] in keys && r[j] in keys && FirstIndex(keys, r[i]) < FirstIndex(keys, r[j])
      {
        assert r[j] !in labels' && r[j] in rest;
        assert r[j] != k;
        assert FirstIndex(keys, r[j]) == 1 + FirstIndex(rest, r[j]);
        if i < |labels'| {
          assert r[i] == r[..|labels'|][i] == labels'[i] == k;
          assert FirstIndex(keys, k) == 0;
        } else {
          assert r[i] !in labels' && r[i] in rest;
          assert r[i] != k;
          assert FirstIndex(keys, r[i]) == 1 + FirstIndex(rest, r[i]);
          assert FirstIndex(rest, r[i]) < FirstIndex(rest, r[j]);
        }
      }
    }
  }

  /** `$.grep(labels, pair => data[pair])`: the labels that are still keys, in their order. */
  function Keep(labels: seq<string>, keys: seq<string>): (r: seq<string>)
    ensures forall x :: x in r <==> x in labels && x in keys
    ensures |r| <= |labels|
    ensures NoDup(labels) ==> NoDup(r)
    decreases |labels|
  {
    if labels == [] then []
    else
      var rest := Keep(labels[1..], keys);
      assert forall x :: x in labels <==> x == labels[0] || x in labels[1..] by {
        assert labels == [labels[0]] + labels[1..];
      }
      if labels[0] in keys then [labels[0]] + rest else rest
  }

  /** The labels `Keep` returns are a subsequence of `labels`: they keep
      their order. */
  lemma {:induction false} KeepIsSubsequence(labels: seq<string>, keys: seq<string>)
    ensures IsSubsequence(Keep(labels, keys), labels)
    decreases |labels|
  {
    if labels != [] {
      KeepIsSubsequence(labels[1..], keys);
      var r := Keep(labels, keys);
      if labels[0] in keys {
        assert r[0] == labels[0] && r[1..] == Keep(labels[1..], keys);
      }
    }
  }

  lemma {:induction false} KeepAppend(a: seq<string>, b: seq<string>, keys: seq<string>)
    ensures Keep(a + b, keys) == Keep(a, keys) + Keep(b, keys)
    decreases |a|
  {
    if a == [] {
      assert a + b == b;
    } else {
      assert (a + b)[1..] == a[1..] + b;
      KeepAppend(a[1..], b, keys);
    }
  }

  lemma {:induction false} KeepAllKeys(a: seq<string>, keys: seq<string>)
    requires forall x :: x in a ==> x in keys
    ensures Keep(a, keys) == a
    decreases |a|
  {
    if a != [] {
      KeepAllKeys(a[1..], keys);
    }
  }

  /** The labels after a poll: add unseen keys, then drop labels that are not keys. */
  function MergedLabels(labels: seq<string>, resp: Response): seq<string> {
    Keep(AddUnseen(labels, Keys(resp)), Keys(resp))
  }

  /** The keys a poll appends to the labels. */
  function Added(labels: seq<string>, resp: Response): seq<string> {
    var all := AddUnseen(labels, Keys(resp));
    all[|labels|..]
  }

  /** After a poll the labels are the previous labels that are still keys,
      in their previous order, followed by the keys never seen before, in
      order of first appearance. */
  lemma MergedLabelsOrder(labels: seq<string>, resp: Response)
    ensures MergedLabels(labels, resp) == Keep(labels, Keys(resp)) + Added(labels, resp)
    ensures forall x :: x in Added(labels, resp) <==> x in Keys(resp) && x !in labels
    ensures AppendsInKeyOrder([], Keys(resp), Added(labels, resp))
  {
    var keys := Keys(resp);
    var all := AddUnseen(labels, keys);
    var added := all[|labels|..];
    AddUnseenAddsNew(labels, keys);
    AddUnseenOrder(labels, keys);
    assert all == labels + added by {
      assert all[..|labels|] == labels;
    }
    forall i | 0 <= i < |added| ensures added[i] in keys && added[i] !in labels {
      assert added[i] == all[|labels| + i];
    }
    KeepAppend(labels, added, keys);
    KeepAllKeys(added, keys);
    forall i, j | 0 <= i < j < |added|
      ensures added[i] in keys && added[j] in keys && FirstIndex(keys, added[i]) < FirstIndex(keys, added[j])
    {
      assert added[i] == all[|labels| + i] && added[j] == all[|labels| + j];
    }
  }

  /** After a poll exactly the response keys are labels, and no duplicate is introduced. */
  lemma MergedLabelsAreKeys(labels: seq<string>, resp: Response)
    ensures forall x :: x in MergedLabels(labels, resp) <==> x in Keys(resp)
    ensures NoDup(labels) ==> NoDup(MergedLabels(labels, resp))
  {
    if NoDup(labels) {
      AddUnseenNoDup(labels, Keys(resp));
    }
  }

  // ---------------------------------------------------------------------
  // The bucket matrix

  function Zeros(n: nat): (z: seq<int>)
    ensures |z| == n && forall j :: 0 <= j < n ==> z[j] == 0
  {
    seq(n, _ => 0)
  }

  /** `buckets[i][j] = values[j] || 0` for the `MaxColumns` buckets, or a zero
      row when the lookup found nothing. */
  function Row(values: Option<seq<int>>): (r: seq<int>)
    ensures |r| == MaxColumns
    ensures values.None? ==> r == Zeros(MaxColumns)
    ensures values.Some? && |values.value| >= MaxColumns ==> r == values.value[..MaxColumns]
    ensures values.Some? && |values.value| < MaxColumns ==>
      r == values.value + Zeros(MaxColumns - |values.value|)
  {
    seq(MaxColumns, j requires 0 <= j < MaxColumns =>
      if values.Some? && j < |values.value| then values.value[j] else 0)
  }

  /** A matrix of `rows` rows of `MaxColumns` entries. */
  predicate MatrixShaped(buckets: seq<seq<int>>, rows: int) {
    |buckets| == rows && forall i :: 0 <= i < |buckets| ==> |buckets[i]| == MaxColumns
  }

  /** The invariant every poll re-establishes. */
  predicate Consistent(m: BlobsModel) {
    && MatrixShaped(m.buckets, m.maxRows)
    && |m.labels| <= m.maxRows
    && NoDup(m.labels)
    && (forall i :: |m.labels| <= i < m.maxRows ==> m.buckets[i] == Zeros(MaxColumns))
  }

  /** `data[swimlaneLabels[i]]` as JavaScript evaluates it: past the end of the
      labels the index is `undefined`, which names the property "undefined". */
  function LabelKeyAt(labels: seq<string>, i: nat): string {
    if i < |labels| then labels[i] else UndefinedKey
  }

  /** The success callback of the bucket poll, with the padding rows zeroed:
      a new matrix of `max(maxRows, |labels|)` rows, each label's row its
      series cut or zero-padded to `MaxColumns`, every other row zero. */
  function Merge(m: BlobsModel, resp: Response, start: int): (r: BlobsModel)
    ensures r.labels == MergedLabels(m.labels, resp)
    ensures r.maxRows == Max(m.maxRows, |r.labels|) && r.maxRows >= m.maxRows
    ensures MatrixShaped(r.buckets, r.maxRows)
    ensures forall i :: 0 <= i < |r.labels| ==>
      Lookup(resp, r.labels[i]).Some? && r.buckets[i] == Row(Lookup(resp, r.labels[i]))
    ensures forall i :: |r.labels| <= i < r.maxRows ==> r.buckets[i] == Zeros(MaxColumns)
    ensures r.startTime == start
    ensures r.bucketSize == m.bucketSize && r.polling == m.polling
  {
    var labels := MergedLabels(m.labels, resp);
    var rows := Max(|labels|, m.maxRows);
    var buckets := seq(rows, i requires 0 <= i < rows =>
      Row(if i < |labels| then Lookup(resp, labels[i]) else None));
    assert forall i :: |labels| <= i < rows ==> buckets[i] == Row(None);
    m.(labels := labels, buckets := buckets, maxRows := rows, startTime := start)
  }

  /** A poll keeps the model consistent. */
  lemma MergeConsistent(m: BlobsModel, resp: Response, start: int)
    requires NoDup(m.labels)
    ensures Consistent(Merge(m, resp, start))
  {
    MergedLabelsAreKeys(m.labels, resp);
  }

  /** A pair missing from the next poll loses its swimlane, while the number
      of reserved rows stays: its old row becomes a zero padding row. */
  lemma DroppedPairKeepsRows(hour: int, a: string, b: string, sa: seq<int>, sb: seq<int>)
    requires a != b
    ensures var m1 := Merge(Initial(hour), [(a, sa), (b, sb)], 0);
      var m2 := Merge(m1, [(a, sa)], 0);
      && m1.labels == [a, b]
      && m2.labels == [a]
      && m2.maxRows == m1.maxRows == DefaultMaxRows
      && m2.buckets[1] == Zeros(MaxColumns)
  {
    var r1: Response := [(a, sa), (b, sb)];
    var r2: Response := [(a, sa)];
    assert Keys(r1) == [a, b];
    assert Keys(r2) == [a];
    assert [a, b][1..] == [b] && [] + [a] == [a] && [a] + [b] == [a, b];
    assert AddUnseen([], [a, b]) == AddUnseen([a], [b]);
    assert AddUnseen([a], [b]) == AddUnseen([a, b], []) == [a, b];
    assert Keep([a, b], [a, b]) == [a] + Keep([b], [a, b]) == [a, b] + Keep([], [a, b]);
    assert AddUnseen([a, b], [a]) == AddUnseen([a, b], []) == [a, b];
    assert Keep([a, b], [a]) == [a] + Keep([b], [a]) == [a] + Keep([], [a]);
  }

  /** The success callback exactly as written: rows past the labels read the
      series of a pair literally named "undefined", if the response has one. */
  function MergeAsWritten(m: BlobsModel, resp: Response, start: int): (r: BlobsModel)
    ensures r.labels == MergedLabels(m.labels, resp)
    ensures r.maxRows == Max(m.maxRows, |r.labels|)
    ensures MatrixShaped(r.buckets, r.maxRows)
    ensures forall i :: |r.labels| <= i < r.maxRows ==>
      r.buckets[i] == Row(Lookup(resp, UndefinedKey))
  {
    var labels := MergedLabels(m.labels, resp);
    var rows := Max(|labels|, m.maxRows);
    var buckets := seq(rows, i requires 0 <= i < rows =>
      Row(Lookup(resp, LabelKeyAt(labels, i))));
    m.(labels := labels, buckets := buckets, maxRows := rows, startTime := start)
  }

  /** Without a pair named "undefined" the callback as written agrees with `Merge`. */
  lemma MergeAsWrittenAgrees(m: BlobsModel, resp: Response, start: int)
    requires UndefinedKey !in Keys(resp)
    ensures MergeAsWritten(m, resp, start) == Merge(m, resp, start)
  {
    var a := MergeAsWritten(m, resp, start);
    var b := Merge(m, resp, start);
    assert |a.buckets| == |b.buckets|;
    forall i | 0 <= i < |a.buckets| ensures a.buckets[i] == b.buckets[i] {
    }
  }

  /** A response holding only a pair named "undefined" fills every padding
      row of the matrix as written with that pair's series. */
  lemma UndefinedPairFillsPadding()
    ensures var resp := [(UndefinedKey, [5])];
      && MergeAsWritten(Initial(0), resp, 0).buckets[1][0] == 5
      && Merge(Initial(0), resp, 0).buckets[1][0] == 0
  {
    var resp := [(UndefinedKey, [5])];
    assert Keys(resp) == [UndefinedKey];
    assert AddUnseen([], [UndefinedKey]) == AddUnseen([UndefinedKey], []) == [UndefinedKey];
    assert Keep([UndefinedKey], [UndefinedKey]) == [UndefinedKey] + Keep([], [UndefinedKey]);
    assert MergedLabels([], resp) == [UndefinedKey];
  }

  // ---------------------------------------------------------------------
  // Polling and zoom

  /** The window a sync asks for: `MaxColumns` buckets ending at the next whole hour. */
  function Window(bucketSize: int, hour: int): (q: SyncRequest)
    ensures q.end == hour && q.bucketing == bucketSize
    ensures q.end - q.start == MaxColumns * bucketSize * 1000
  {
    SyncRequest(hour - bucketSize * MaxColumns * 1000, hour, bucketSize)
  }

  /** The timer tick: a sync is issued exactly when polling is on. */
  function PeriodicSync(m: BlobsModel, hour: int): (q: Option<SyncRequest>)
    ensures q.Some? <==> m.polling
    ensures q.Some? ==> q.value.bucketing == m.bucketSize && q.value.end == hour
    ensures q.Some? ==> q.value.end - q.value.start == MaxColumns * m.bucketSize * 1000
  {
    if m.polling then Some(Window(m.bucketSize, hour)) else None
  }

  function StartPolling(m: BlobsModel): (r: BlobsModel)
    ensures r.polling
    ensures r.(polling := m.polling) == m
  {
    m.(polling := true)
  }

  function StopPolling(m: BlobsModel): (r: BlobsModel)
    ensures !r.polling
    ensures r.(polling := m.polling) == m
  {
    m.(polling := false)
  }

  /** `Math.round(b / 2)`: the integer nearest to half of `b`, halves rounded up. */
  function RoundHalf(b: int): (r: int)
    ensures (r as real) - 0.5 <= (b as real) / 2.0 < (r as real) + 0.5
  {
    (b + 1) / 2
  }

  /** Double the bucket width and sync straight away. */
  function ZoomOut(m: BlobsModel, hour: int): (r: (BlobsModel, SyncRequest))
    ensures r.0.bucketSize == 2 * m.bucketSize
    ensures r.0 == m.(bucketSize := r.0.bucketSize)
    ensures r.1.bucketing == r.0.bucketSize && r.1.end == hour
    ensures r.1.end - r.1.start == MaxColumns * r.0.bucketSize * 1000
  {
    var m' := m.(bucketSize := m.bucketSize * 2);
    (m', Window(m'.bucketSize, hour))
  }

  /** Halve the bucket width, rounding, and sync straight away. */
  function ZoomIn(m: BlobsModel, hour: int): (r: (BlobsModel, SyncRequest))
    ensures r.0.bucketSize == RoundHalf(m.bucketSize)
    ensures r.0 == m.(bucketSize := r.0.bucketSize)
    ensures r.1.bucketing == r.0.bucketSize && r.1.end == hour
    ensures r.1.end - r.1.start == MaxColumns * r.0.bucketSize * 1000
  {
    var m' := m.(bucketSize := RoundHalf(m.bucketSize));
    (m', Window(m'.bucketSize, hour))
  }

  /** Zooming in undoes zooming out. */
  lemma ZoomInUndoesZoomOut(m: BlobsModel, hour: int)
    ensures ZoomIn(ZoomOut(m, hour).0, hour).0 == m
  {
    assert RoundHalf(2 * m.bucketSize) == m.bucketSize;
  }

  /** Zooming out after zooming in restores an even width and overshoots an
      odd one by a single second. */
  lemma ZoomOutAfterZoomIn(m: BlobsModel, hour: int)
    ensures var b := ZoomOut(ZoomIn(m, hour).0, hour).0.bucketSize;
      b == if m.bucketSize % 2 == 0 then m.bucketSize else m.bucketSize + 1
  {
  }

  /** Zooming in never takes a width of at least one second below one second,
      even without the keyboard guard (`Math.round(0.5) == 1`). */
  lemma ZoomInKeepsPositive(m: BlobsModel, hour: int)
    requires m.bucketSize >= 1
    ensures ZoomIn(m, hour).0.bucketSize >= 1
    ensures m.bucketSize > 1 ==> ZoomIn(m, hour).0.bucketSize < m.bucketSize
  {
  }
}

=== FILE: diffs.dfy ===
/** The difference list's paging and selection: which range and page are
    shown, which event is selected, and what a list response does to them.

    The network is abstracted: an operation that would fetch a page returns
    the request it issues, and `Receive` is the arrival of a response. */
module Diffs {
  import opened Util

  /** Events per page. */
  const ListSize: int := 20

  /** One difference event; `seqId` is its identity. */
  datatype Diff = Diff(seqId: string, detail: string)

  /** The pair and time range the list shows. */
  datatype Range = Range(pairKey: string, start: int, end: int)

  datatype DiffsState = DiffsState(
    range: Option<Range>,
    page: int,
    events: seq<Diff>,          // the events of the current page
    selected: Option<string>,   // id of the selected event
    totalEvents: nat,
    totalPages: nat,
    lastSeqId: Option<string>)  // version of the last response applied

  /** A page fetch; `force` travels with it to the response handler. */
  datatype DiffsRequest = DiffsRequest(range: Range, offset: int, length: int, force: bool)

  /** A list response: the page's events, the total count, and a version id. */
  datatype DiffsResponse = DiffsResponse(diffs: seq<Diff>, total: nat, seqId: string)

  const InitialDiffs: DiffsState := DiffsState(None, 0, [], None, 0, 0, None)

  /** `Math.ceil(total / ListSize)`: the fewest pages that hold `total` events. */
  function PageCount(total: nat): (n: nat)
    ensures n * ListSize >= total
    ensures n == 0 || (n - 1) * ListSize < total
  {
    (total + ListSize - 1) / ListSize
  }

  /** Whether an event with id `id` is on the page. */
  predicate HasId(events: seq<Diff>, id: string) {
    exists k :: 0 <= k < |events| && events[k].seqId == id
  }

  /** `indexOf`: the position of the first event with id `id`, or -1. */
  function IndexOf(events: seq<Diff>, id: string): (k: int)
    ensures -1 <= k < |events|
    ensures k >= 0 ==> events[k].seqId == id
    ensures k == -1 <==> !HasId(events, id)
    ensures k >= 0 ==> forall j :: 0 <= j < k ==> events[j].seqId != id
    decreases |events|
  {
    if events == [] then -1
    else if events[0].seqId == id then 0
    else
      var k := IndexOf(events[1..], id);
      assert HasId(events, id) <==> HasId(events[1..], id) by {
        if HasId(events, id) {
          var j :| 0 <= j < |events| && events[j].seqId == id;
          assert events[1..][j - 1].seqId == id;
        }
        if HasId(events[1..], id) {
          var j :| 0 <= j < |events[1..]| && events[1..][j].seqId == id;
          assert events[j + 1].seqId == id;
        }
      }
      if k == -1 then -1 else k + 1
  }

  /** `sync(force)`: without a range the list is emptied; otherwise the
      current page is requested. */
  function Sync(s: DiffsState, force: bool): (r: (DiffsState, Option<DiffsRequest>))
    ensures r.1.Some? <==> s.range.Some?
    ensures r.1.Some? ==> r.0 == s && r.1.value == DiffsRequest(s.range.value, s.page * ListSize, ListSize, force)
    ensures r.1.None? ==> r.0 == s.(events := [])
  {
    match s.range
    case None => (s.(events := []), None)
    case Some(range) => (s, Some(DiffsRequest(range, s.page * ListSize, ListSize, force)))
  }

  /** `setPage(page, force)`: move to `page` and fetch it, unless it is the
      current page and the move is not forced. */
  function SetPage(s: DiffsState, page: int, force: bool): (r: (DiffsState, Option<DiffsRequest>))
    ensures force || s.page != page ==>
      && r.0.page == page
      && (s.range.Some? ==>
            r.0 == s.(page := page) && r.1 == Some(DiffsRequest(s.range.value, page * ListSize, ListSize, true)))
      && (s.range.None? ==> r.0 == s.(page := page, events := []) && r.1.None?)
    ensures !force && s.page == page ==> r == (s, None)
  {
    if force || s.page != page then Sync(s.(page := page), true) else (s, None)
  }

  /** Advance one page while the page is below the page count. The guard lets
      the page reach `totalPages` itself, one past the last page; the next
      response moves it back (`NextPastLastPageIsPulledBack`). */
  function NextPage(s: DiffsState): (r: (DiffsState, Option<DiffsRequest>))
    ensures s.page < s.totalPages ==> r.0.page == s.page + 1 && r.1.Some? == s.range.Some?
    ensures s.page < s.totalPages ==>
      r.0 == (if s.range.Some? then s.(page := s.page + 1) else s.(page := s.page + 1, events := []))
    ensures s.page < s.totalPages && s.range.Some? ==>
      r.1 == Some(DiffsRequest(s.range.value, (s.page + 1) * ListSize, ListSize, true))
    ensures s.page >= s.totalPages ==> r == (s, None)
    ensures s.page <= s.totalPages ==> r.0.page <= s.totalPages
  {
    if s.page < s.totalPages then SetPage(s, s.page + 1, false) else (s, None)
  }

  /** Go back one page, never below the first. */
  function PreviousPage(s: DiffsState): (r: (DiffsState, Option<DiffsRequest>))
    ensures s.page > 0 ==> r.0.page == s.page - 1 && r.1.Some? == s.range.Some?
    ensures s.page > 0 ==>
      r.0 == (if s.range.Some? then s.(page := s.page - 1) else s.(page := s.page - 1, events := []))
    ensures s.page > 0 && s.range.Some? ==>
      r.1 == Some(DiffsRequest(s.range.value, (s.page - 1) * ListSize, ListSize, true))
    ensures s.page <= 0 ==> r == (s, None)
    ensures s.page >= 0 ==> r.0.page >= 0
  {
    if s.page > 0 then SetPage(s, s.page - 1, false) else (s, None)
  }

  /** The router's entry: show a pair and time range from its first page. */
  function Select(s: DiffsState, pairKey: string, start: int, end: int): (r: (DiffsState, Option<DiffsRequest>))
    ensures r.0.range == Some(Range(pairKey, start, end)) && r.0.page == 0
    ensures r.1 == Some(DiffsRequest(Range(pairKey, start, end), 0, ListSize, true))
    ensures r.0 == s.(range := Some(Range(pairKey, start, end)), page := 0)
  {
    SetPage(s.(range := Some(Range(pairKey, start, end))), 0, true)
  }

  /** `selectEvent(id)`: select the event with that id if it is on the page,
      otherwise clear the selection. */
  function SelectEvent(s: DiffsState, id: Option<string>): (r: DiffsState)
    ensures r.selected.Some? <==> id.Some? && HasId(s.events, id.value)
    ensures r.selected.Some? ==> r.selected == id
    ensures r == s.(selected := r.selected)
  {
    if id.Some? && HasId(s.events, id.value) then s.(selected := id) else s.(selected := None)
  }

  /** Move the selection `offset` places along the page, if that lands on the
      page; with nothing selected nothing happens. */
  function SelectEventWithOffset(s: DiffsState, offset: int): (r: DiffsState)
    ensures r == s.(selected := r.selected)
    ensures r.selected != s.selected ==>
      s.selected.Some? &&
      var k := IndexOf(s.events, s.selected.value) + offset;
      0 <= k < |s.events| && r.selected == Some(s.events[k].seqId)
    ensures s.selected.Some? ==>
      var k := IndexOf(s.events, s.selected.value) + offset;
      0 <= k < |s.events| ==> r.selected == Some(s.events[k].seqId)
    ensures s.selected.None? ==> r == s
  {
    match s.selected
    case None => s
    case Some(id) =>
      var newIdx := IndexOf(s.events, id) + offset;
      if 0 <= newIdx < |s.events| then
        assert HasId(s.events, s.events[newIdx].seqId);
        SelectEvent(s, Some(s.events[newIdx].seqId))
      else s
  }

  /** The response handler. A response that is not forced and carries the
      version last applied changes nothing. Otherwise the page's events are
      replaced, the totals follow the response, the selection falls back to
      the first event (or none) when it is no longer on the page, a page past
      the last is moved back to the last (fetching it), and the version is
      recorded. */
  function Receive(s: DiffsState, force: bool, resp: DiffsResponse): (r: (DiffsState, Option<DiffsRequest>))
    ensures !force && s.lastSeqId == Some(resp.seqId) ==> r == (s, None)
    ensures !(!force && s.lastSeqId == Some(resp.seqId)) ==>
      && r.0.lastSeqId == Some(resp.seqId)
      && (s.range.Some? ==> r.0.events == resp.diffs)
      && r.0.totalEvents == resp.total
      && (s.totalPages == PageCount(s.totalEvents) ==> r.0.totalPages == PageCount(resp.total))
      && r.0.range == s.range
      && (r.0.selected.Some? ==> HasId(resp.diffs, r.0.selected.value))
      && (r.0.selected.None? ==> |resp.diffs| == 0)
      && (s.selected.Some? && HasId(resp.diffs, s.selected.value) ==> r.0.selected == s.selected)
      && (!(s.selected.Some? && HasId(resp.diffs, s.selected.value)) && |resp.diffs| > 0 ==>
            r.0.selected == Some(resp.diffs[0].seqId))
      && (r.0.totalPages > 0 ==> r.0.page < r.0.totalPages)
      && (r.0.page == if s.page >= r.0.totalPages && r.0.totalPages > 0 then r.0.totalPages - 1 else s.page)
      && (r.1.Some? <==> s.page >= r.0.totalPages && r.0.totalPages > 0 && s.range.Some?)
    ensures r.1.Some? ==> r.1.value == DiffsRequest(s.range.value, r.0.page * ListSize, ListSize, true)
  {
    if !force && s.lastSeqId == Some(resp.seqId) then (s, None)
    else
      var s1 := if s.totalEvents != resp.total
        then s.(totalEvents := resp.total, totalPages := PageCount(resp.total))
        else s;
      var s2 := s1.(events := resp.diffs);
      var s3 :=
        if s2.selected.None? || !HasId(s2.events, s2.selected.value) then
          if |resp.diffs| > 0 then
            assert HasId(s2.events, resp.diffs[0].seqId);
            SelectEvent(s2, Some(resp.diffs[0].seqId))
          else SelectEvent(s2, None)
        else s2;
      var (s4, request) :=
        if s3.page >= s3.totalPages && s3.totalPages > 0 then SetPage(s3, s3.totalPages - 1, true)
        else (s3, None);
      (s4.(lastSeqId := Some(resp.seqId)), request)
  }

  /** A page moved back by a response is fetched from an offset that lies
      inside the event count. */
  lemma ClampedPageFetchIsInRange(s: DiffsState, force: bool, resp: DiffsResponse)
    requires s.totalPages == PageCount(s.totalEvents)
    requires Receive(s, force, resp).1.Some?
    ensures 0 <= Receive(s, force, resp).1.value.offset < resp.total
  {
  }

  /** The state every operation keeps: a page that is not negative and a page
      count that matches the event count. */
  predicate Valid(s: DiffsState) {
    s.page >= 0 && s.totalPages == PageCount(s.totalEvents)
  }

  /** Every user action or response the list reacts to. */
  datatype Op =
    | Tick                                  // the poll timer
    | Next | Previous
    | SelectRange(pairKey: string, start: int, end: int)
    | SelectId(id: Option<string>)
    | Offset(offset: int)
    | Respond(force: bool, resp: DiffsResponse)

  function Step(s: DiffsState, op: Op): DiffsState {
    match op
    case Tick => Sync(s, false).0
    case Next => NextPage(s).0
    case Previous => PreviousPage(s).0
    case SelectRange(k, a, b) => Select(s, k, a, b).0
    case SelectId(id) => SelectEvent(s, id)
    case Offset(o) => SelectEventWithOffset(s, o)
    case Respond(f, resp) => Receive(s, f, resp).0
  }

  function Run(s: DiffsState, ops: seq<Op>): DiffsState
    decreases |ops|
  {
    if ops == [] then s else Run(Step(s, ops[0]), ops[1..])
  }

  /** No sequence of operations takes the page below zero or lets the page
      count disagree with the event count. */
  lemma {:induction false} RunKeepsValid(s: DiffsState, ops: seq<Op>)
    requires Valid(s)
    ensures Valid(Run(s, ops))
    decreases |ops|
  {
    if ops != [] {
      assert Valid(Step(s, ops[0]));
      RunKeepsValid(Step(s, ops[0]), ops[1..]);
    }
  }

  /** Stepping past the last page is undone by the next response: with an
      unchanged total the page returns to the last one and is fetched again. */
  lemma NextPastLastPageIsPulledBack(s: DiffsState, force: bool, resp: DiffsResponse)
    requires Valid(s) && s.range.Some?
    requires s.totalPages > 0 && s.page == s.totalPages - 1
    requires resp.total == s.totalEvents
    requires force || s.lastSeqId != Some(resp.seqId)
    ensures NextPage(s).0.page == s.totalPages
    ensures var r := Receive(NextPage(s).0, force, resp);
      r.0.page == s.totalPages - 1 && r.1.Some? && r.1.value.offset == (s.totalPages - 1) * ListSize
  {
  }
}

=== FILE: geometry.dfy ===
/** The heatmap grid: its constants and the mapping between pixel points and
    (swimlane row, time-bucket column) cells. Points are whole pixels; the
    half-pixel offsets the renderer adds never change which cell a point
    falls in. */
module Geometry {

  /** Number of time buckets in one swimlane. */
  const MaxColumns: int := 96
  /** Width of one bucket cell, in pixels. */
  const GridSize: int := 30
  /** Blank space above and below the cells of a swimlane. */
  const GutterSize: int := 24
  /** Height of one swimlane: a gutter, the cells, a gutter. */
  const LaneHeight: int := 2 * GutterSize + GridSize
  /** Rows the heatmap reserves before any pair has been seen. */
  const DefaultMaxRows: int := 10
  /** Largest blob radius a cell can hold: `floor((GridSize - 1) / 2)`. */
  const MaxRadius: int := (GridSize - 1) / 2
  /** Width of the whole grid, in pixels. */
  const RegionWidth: int := MaxColumns * GridSize

  datatype Point = Point(x: int, y: int)
  datatype Cell = Cell(row: int, column: int)

  /** The cell a point lies in: floor of the point over the lane height and
      the cell width. Works for points left of or above the grid too. */
  function CoordsToCell(p: Point): (c: Cell)
    ensures c.row * LaneHeight <= p.y < (c.row + 1) * LaneHeight
    ensures c.column * GridSize <= p.x < (c.column + 1) * GridSize
  {
    Cell(p.y / LaneHeight, p.x / GridSize)
  }

  /** The top-left corner of a cell; mapping it back yields the same cell. */
  function CellToCoords(c: Cell): (p: Point)
    ensures CoordsToCell(p) == c
  {
    Point(c.column * GridSize, c.row * LaneHeight)
  }

  /** The corner of the cell a point falls in lies at most one cell up and to
      the left of the point. */
  lemma CellCornerNearPoint(p: Point)
    ensures var q := CellToCoords(CoordsToCell(p));
      && p.x - GridSize < q.x <= p.x
      && p.y - LaneHeight < q.y <= p.y
  {
  }

  /** Whether a cell lies in a grid of `rows` swimlanes. */
  predicate InGrid(c: Cell, rows: int) {
    0 <= c.row < rows && 0 <= c.column < MaxColumns
  }
}

=== FILE: heatmap.dfy ===
/** The parts of the heatmap renderer that decide rather than paint: the
    clamp of a bucket count to a blob radius, the search for the boundary
    cell whose blob is still visible, the scan for data beyond the viewport
    that decides the arrow cues, the circle drawn for a cell, the value
    shown over a highlighted cell, and the time-axis ticks. */
module Heatmap {
  import opened Util
  import opened Geometry

  datatype Direction = Left | Right

  /** A blob as drawn: its radius and the width of its outline. */
  datatype Circle = Circle(radius: int, lineWidth: int)

  /** `buckets[row][column]`: a count, or `undefined` past either end of the row. */
  function BucketAt(buckets: seq<seq<int>>, c: Cell): (v: Option<int>)
    requires 0 <= c.row < |buckets|
    ensures v.Some? <==> 0 <= c.column < |buckets[c.row]|
    ensures v.Some? ==> v.value == buckets[c.row][c.column]
  {
    if 0 <= c.column < |buckets[c.row]| then Some(buckets[c.row][c.column]) else None
  }

  /** The heatmap's `limit`, applied to what indexing a row yields. The
      comparison `undefined <= maximum` is false, so `undefined` comes back
      as the maximum, flagged as limited. */
  function Limit(value: Option<int>, maximum: int): (r: Limited<int>)
    ensures r.value <= maximum
    ensures r.limited <==> !(value.Some? && value.value <= maximum)
    ensures value.Some? ==> r.value == if value.value <= maximum then value.value else maximum
    ensures value.None? ==> r.value == maximum
  {
    match value
    case Some(v) => if v <= maximum then Limited(v, false) else Limited(maximum, true)
    case None => Limited(maximum, true)
  }

  /** The radius of the blob drawn in a cell: its count, at most `MaxRadius`. */
  function BlobRadius(buckets: seq<seq<int>>, c: Cell): int
    requires 0 <= c.row < |buckets|
  {
    Limit(BucketAt(buckets, c), MaxRadius).value
  }

  /** The x coordinate of the centre of the blobs in a column. */
  function CenterX(column: int): int {
    CellToCoords(Cell(0, column)).x + GridSize / 2
  }

  /** The cell at the viewport boundary `x`, moved one column inwards when its
      blob lies wholly outside: to the right when the blob ends left of the
      left boundary, to the left when it starts right of the right boundary. */
  function FindCellWithVisibleBlob(buckets: seq<seq<int>>, x: int, y: int, dir: Direction): (c: Cell)
    requires 0 <= CoordsToCell(Point(x, y)).row < |buckets|
    ensures var base := CoordsToCell(Point(x, y));
      var radius := BlobRadius(buckets, base);
      && c.row == base.row
      && (dir == Left ==>
            (c.column == base.column || c.column == base.column + 1)
            && (c.column == base.column + 1 <==> radius > 0 && CenterX(base.column) + radius < x))
      && (dir == Right ==>
            (c.column == base.column || c.column == base.column - 1)
            && (c.column == base.column - 1 <==> radius > 0 && x < CenterX(base.column) - radius))
  {
    var cell := CoordsToCell(Point(x, y));
    var radius := Limit(BucketAt(buckets, cell), MaxRadius);
    if radius.value > 0 then
      var cutoff := CellToCoords(cell).x + GridSize / 2 + (if dir == Left then radius.value else -radius.value);
      if dir == Left && x > cutoff then cell.(column := cell.column + 1)
      else if dir == Right && x < cutoff then cell.(column := cell.column - 1)
      else cell
    else cell
  }

  /** An empty bucket at the boundary is never stepped over. */
  lemma EmptyBoundaryCellStays(buckets: seq<seq<int>>, x: int, y: int, dir: Direction)
    requires 0 <= CoordsToCell(Point(x, y)).row < |buckets|
    requires BucketAt(buckets, CoordsToCell(Point(x, y))) == Some(0)
    ensures FindCellWithVisibleBlob(buckets, x, y, dir) == CoordsToCell(Point(x, y))
  {
  }

  /** A boundary in the half of its cell nearer the viewport never causes a nudge. */
  lemma NudgeOnlyPastCenter(buckets: seq<seq<int>>, x: int, y: int, dir: Direction)
    requires 0 <= CoordsToCell(Point(x, y)).row < |buckets|
    ensures var base := CoordsToCell(Point(x, y));
      FindCellWithVisibleBlob(buckets, x, y, dir) != base ==>
        if dir == Left then x > CenterX(base.column) else x < CenterX(base.column)
  {
  }

  /** Whether column `j` of row `row` holds a positive count. */
  predicate Positive(buckets: seq<seq<int>>, row: int, j: int)
    requires 0 <= row < |buckets|
  {
    0 <= j < |buckets[row]| && buckets[row][j] > 0
  }

  /** Whether some column in `[startColumn, endColumn)` of the row holds a
      positive count; columns outside the row read as `undefined`, which is
      not positive. The row is only read when the range is non-empty. */
  method NonEmptyCellExists(buckets: seq<seq<int>>, row: int, startColumn: int, endColumn: int)
    returns (found: bool)
    requires startColumn < endColumn ==> 0 <= row < |buckets|
    ensures found <==>
      (startColumn < endColumn && exists j :: startColumn <= j < endColumn && Positive(buckets, row, j))
  {
    if startColumn >= endColumn {
      return false;
    }
    var cols := buckets[row];
    var i := startColumn;
    while i < endColumn
      invariant startColumn <= i <= endColumn
      invariant forall j :: startColumn <= j < i ==> !Positive(buckets, row, j)
      decreases endColumn - i
    {
      if 0 <= i < |cols| && cols[i] > 0 {
        assert Positive(buckets, row, i);
        return true;
      }
      i := i + 1;
    }
    return false;
  }

  /** The arrow cues of one swimlane for a viewport offset `ox` and a canvas
      `width`: a left arrow is drawn exactly when data lies left of the left
      boundary's column, or in that column with its blob wholly left of the
      boundary; the right arrow likewise towards the right boundary. */
  method LaneArrows(buckets: seq<seq<int>>, ox: int, width: int, lane: int)
    returns (left: bool, right: bool)
    requires 0 <= lane < |buckets|
    ensures var c := Abs(ox) / GridSize;
      && (left ==> exists j :: 0 <= j <= c && Positive(buckets, lane, j))
      && ((exists j :: 0 <= j < c && Positive(buckets, lane, j)) ==> left)
    ensures var c := (Abs(ox) + width - 1) / GridSize;
      && (right ==> exists j :: c <= j < MaxColumns && Positive(buckets, lane, j))
      && ((exists j :: c < j < MaxColumns && Positive(buckets, lane, j)) ==> right)
    ensures var x := Abs(ox);
      var c := x / GridSize;
      left <==>
        (|| (exists j :: 0 <= j < c && Positive(buckets, lane, j))
         || (Positive(buckets, lane, c) && CenterX(c) + Min(buckets[lane][c], MaxRadius) < x))
    ensures var x := Abs(ox) + width - 1;
      var c := x / GridSize;
      right <==>
        (|| (exists j :: c < j < MaxColumns && Positive(buckets, lane, j))
         || (c < MaxColumns && Positive(buckets, lane, c) && x < CenterX(c) - Min(buckets[lane][c], MaxRadius)))
  {
    var viewportX := Abs(ox);
    var y := lane * LaneHeight;
    assert CoordsToCell(Point(viewportX, y)).row == lane;
    assert CoordsToCell(Point(viewportX + width - 1, y)).row == lane;
    var leftCell := FindCellWithVisibleBlob(buckets, viewportX, y, Left);
    left := NonEmptyCellExists(buckets, leftCell.row, 0, leftCell.column);
    var rightCell := FindCellWithVisibleBlob(buckets, viewportX + width - 1, y, Right);
    right := NonEmptyCellExists(buckets, rightCell.row, rightCell.column + 1, MaxColumns);
  }

  /** The circle drawn for a cell of the grid: none outside the reserved rows
      and columns or for an empty bucket; otherwise the raw count as radius,
      capped at `MaxRadius`, with a thicker outline when capped. */
  function DrawCircle(buckets: seq<seq<int>>, maxRows: int, c: Cell): (r: Option<Circle>)
    requires 0 <= c.row && 0 <= c.column
    requires c.column < MaxColumns && c.row < maxRows ==> c.row < |buckets|
    ensures r.Some? ==> c.column < MaxColumns && c.row < maxRows
    ensures c.column < MaxColumns && c.row < maxRows && c.column < |buckets[c.row]| ==>
      var v := buckets[c.row][c.column];
      && (r.Some? <==> v > 0)
      && (r.Some? ==> r.value.radius == (if v <= MaxRadius then v else MaxRadius)
                      && (r.value.lineWidth == 2 <==> v > MaxRadius)
                      && (r.value.lineWidth == 1 <==> v <= MaxRadius))
  {
    if c.column < MaxColumns && c.row < maxRows then
      var size := Limit(BucketAt(buckets, c), MaxRadius);
      if size.value > 0 then Some(Circle(size.value, if size.limited then 2 else 1)) else None
    else None
  }

  /** The value written over the highlighted cell: its count, when positive. */
  function OverlayValue(buckets: seq<seq<int>>, highlighted: Option<Cell>): (v: Option<int>)
    requires highlighted.Some? && highlighted.value.column >= 0 && highlighted.value.row >= 0 ==>
      highlighted.value.row < |buckets|
    ensures v.Some? <==>
      (highlighted.Some? && highlighted.value.column >= 0 && highlighted.value.row >= 0
       && Positive(buckets, highlighted.value.row, highlighted.value.column))
    ensures v.Some? ==> v.value == buckets[highlighted.value.row][highlighted.value.column]
  {
    if highlighted.Some? && highlighted.value.column >= 0 && highlighted.value.row >= 0 then
      match BucketAt(buckets, highlighted.value)
      case Some(value) => if value > 0 then Some(value) else None
      case None => None
    else None
  }

  /** A label of the time axis: the column it stands over and the time it shows. */
  datatype Tick = Tick(column: int, time: int)

  /** The time-axis labels: every third column shows the start time of its bucket. */
  function ScaleTicks(startTime: int, bucketSize: int): (ts: seq<Tick>)
    ensures |ts| == MaxColumns / 3
    ensures forall k :: 0 <= k < |ts| ==>
      ts[k].column % 3 == 0 && 0 <= ts[k].column < MaxColumns
      && ts[k].time == startTime + ts[k].column * bucketSize * 1000
    ensures forall k :: 0 <= k < |ts| - 1 ==> ts[k].column < ts[k + 1].column
  {
    seq(MaxColumns / 3, k requires 0 <= k < MaxColumns / 3 =>
      Tick(3 * k, startTime + 3 * k * bucketSize * 1000))
  }
}

=== FILE: interaction.dfy ===
/** The heatmap view's interaction: panning by drag, hover highlighting,
    click-to-navigate and click-to-toggle-polling, together with the
    redraw (`update`) that the data model's change events trigger.

    The view and the data model it observes form one state, `App`. A change
    of the polling flag, the bucket matrix or the reserved row count fires
    `update` synchronously, which scrolls the viewport back to the newest
    bucket; the handlers below apply that at the point where the change
    happens. Canvas painting is left out; the canvas width and the polling
    label's hit region (which depends on text measurement) are inputs. */
module Interaction {
  import opened Util
  import opened Geometry
  import opened Blobs
  import opened Heatmap
  import Diffs

  datatype View = View(
    dragging: Option<Point>,   // the last pointer position of a drag in progress
    dragged: bool,             // the pointer moved since it went down
    ox: int,                   // horizontal pan offset of the grid, <= 0
    rightLimit: int,           // how far the grid can pan
    highlighted: Option<Cell>)

  datatype App = App(model: BlobsModel, view: View, width: int)

  /** A pointer release: whether it happened over a canvas, and where. */
  datatype Release = Release(onCanvas: bool, at: Point)

  /** The intent `blobs/<pair>/<start>-<end>` handed to the router; a click
      below the last swimlane carries no pair (`undefined`). */
  datatype Navigation = Navigation(pair: Option<string>, start: int, end: int)

  /** Fewest swimlanes the view draws. */
  const MinRows: int := 5

  /** The swimlanes `drawGrid` draws: one per label, and at least `MinRows`. */
  function LanesDrawn(m: BlobsModel): int {
    Max(MinRows, |m.labels|)
  }

  /** Whether `drawGrid` finds every matrix row it reads. The arrow pass
      reads the row of every drawn lane; the circle pass reads every reserved
      row up to one past the lanes, the canvas being a 10-pixel gutter taller
      than its lanes. Reading a missing row throws a TypeError, which
      propagates out of whichever handler asked for the redraw. */
  predicate Drawable(m: BlobsModel): (d: bool)
    ensures d <==> forall k :: ReadsRow(m, k) ==> k < |m.buckets|
  {
    var lanes := LanesDrawn(m);
    assert ReadsRow(m, lanes - 1);
    assert m.maxRows > 0 ==> ReadsRow(m, Min(lanes, m.maxRows - 1));
    |m.buckets| >= lanes && (|m.buckets| >= m.maxRows || |m.buckets| > lanes)
  }

  /** Whether `drawGrid` reads matrix row `k`: the row of every lane drawn,
      and every reserved row up to one past the lanes for the circles. */
  predicate ReadsRow(m: BlobsModel, k: int) {
    0 <= k <= LanesDrawn(m) && (k < LanesDrawn(m) || k < m.maxRows)
  }

  /** The page before the first poll answers: the view is idle, and the
      model's matrix is still empty, so the grid cannot be drawn. */
  function InitialApp(hour: int, width: int): (a: App)
    ensures a.model == Initial(hour) && a.width == width
    ensures a.view.dragging.None? && !a.view.dragged && a.view.ox == 0
    ensures !Drawable(a.model)
  {
    App(Initial(hour), View(None, false, 0, 0, None), width)
  }

  /** Every poll leaves a drawable grid once at least `MinRows` rows are
      reserved, as they are from the start (`DefaultMaxRows` never shrinks). */
  lemma PollMakesDrawable(a: App, resp: Response, start: int)
    requires a.model.maxRows >= MinRows
    ensures Drawable(ReceiveBuckets(a, resp, start).model)
    ensures ReceiveBuckets(a, resp, start).model.maxRows >= MinRows
  {
  }

  /** `update`: recompute the pan limit from the canvas width and show the
      newest bucket at the right edge. */
  function Update(a: App): (r: App)
    ensures r.view.rightLimit == RegionWidth - a.width
    ensures r.view.ox == -r.view.rightLimit
    ensures r == a.(view := r.view)
    ensures r.view == a.view.(ox := r.view.ox, rightLimit := r.view.rightLimit)
  {
    var rightLimit := MaxColumns * GridSize - a.width;
    a.(view := a.view.(rightLimit := rightLimit, ox := -rightLimit))
  }

  /** Set the polling flag; an actual change fires `update`. */
  function SetPolling(a: App, polling: bool): (r: App)
    ensures r.model == a.model.(polling := polling) && r.width == a.width
    ensures a.model.polling == polling ==> r == a
    ensures a.model.polling != polling ==> r.view == Update(a).view
  {
    if a.model.polling == polling then a
    else Update(a.(model := if polling then StartPolling(a.model) else StopPolling(a.model)))
  }

  /** Whether a point falls in the polling label's region, `toggle` being its
      bottom-left corner in canvas coordinates. */
  predicate HitsToggle(p: Point, toggle: Point) {
    p.x > toggle.x && p.y < toggle.y
  }

  /** A click on the polling label flips polling; elsewhere it does nothing. */
  function TogglePolling(a: App, c: Point, toggle: Point): (r: App)
    ensures r.model.polling == (a.model.polling != HitsToggle(c, toggle))
    ensures r.model == a.model.(polling := r.model.polling)
    ensures !HitsToggle(c, toggle) ==> r == a
    ensures HitsToggle(c, toggle) ==> r.view.ox == -(RegionWidth - a.width)
    ensures HitsToggle(c, toggle) ==> r.view == Update(a).view
    ensures r.width == a.width
  {
    if HitsToggle(c, toggle) then
      if a.model.polling then SetPolling(a, false) else SetPolling(a, true)
    else a
  }

  /** The pan offset after a drag by `delta`: never right of 0, never left of
      `-rightLimit`. */
  function Clamp(ox: int, delta: int, rightLimit: int): (r: int)
    ensures rightLimit >= 0 ==> -rightLimit <= r <= 0
    ensures rightLimit >= 0 && -rightLimit <= ox + delta <= 0 ==> r == ox + delta
    ensures rightLimit >= 0 && ox + delta > 0 ==> r == 0
    ensures ox + delta < -rightLimit ==> r == -rightLimit
    ensures rightLimit < 0 ==> r == -rightLimit
  {
    var o := ox + delta;
    var o' := if o > 0 then 0 else o;
    if Abs(o') > rightLimit then -rightLimit else o'
  }

  /** Pointer down on the grid: start a drag from that point. */
  function MouseDown(a: App, p: Point): (r: App)
    ensures r.view.dragging == Some(p) && !r.view.dragged
    ensures r.(view := r.view.(dragging := a.view.dragging, dragged := a.view.dragged)) == a
  {
    a.(view := a.view.(dragging := Some(p), dragged := false))
  }

  /** Pointer move without a drag: highlight the cell under the pointer when
      it is inside the grid. Outside the grid only the `highlighted` field
      keeps its value; the overlay showing it was cleared by the move. */
  function MouseOver(a: App, p: Point): (r: App)
    ensures var c := CoordsToCell(Point(p.x - a.view.ox, p.y));
      && (InGrid(c, a.model.maxRows) ==> r.view.highlighted == Some(c))
      && (!InGrid(c, a.model.maxRows) ==> r == a)
    ensures r == a.(view := a.view.(highlighted := r.view.highlighted))
  {
    var cell := CoordsToCell(Point(p.x - a.view.ox, p.y));
    if 0 <= cell.row < a.model.maxRows && 0 <= cell.column < MaxColumns
    then a.(view := a.view.(highlighted := Some(cell)))
    else a
  }

  /** Pointer move: during a drag, stop polling (which scrolls to the newest
      bucket if polling was on), pan by the pointer's horizontal movement
      within the limits, and note that a drag happened; otherwise hover. */
  function MouseMove(a: App, p: Point): (r: App)
    ensures a.view.dragging.Some? ==>
      && !r.model.polling
      && r.view.dragged
      && r.view.dragging == Some(p)
      && r.model == a.model.(polling := false)
      && (a.view.rightLimit >= 0 && a.width <= RegionWidth ==>
            -r.view.rightLimit <= r.view.ox <= 0 && r.view.rightLimit >= 0)
    ensures a.view.dragging.Some? ==>
      var delta := p.x - a.view.dragging.value.x;
      && (!a.model.polling ==>
            r.view.rightLimit == a.view.rightLimit && r.view.ox == Clamp(a.view.ox, delta, a.view.rightLimit))
      && (a.model.polling ==>
            r.view.rightLimit == RegionWidth - a.width
            && r.view.ox == Clamp(-(RegionWidth - a.width), delta, RegionWidth - a.width))
    ensures a.view.dragging.None? ==> r == MouseOver(a, p)
    ensures a.view.dragging.Some? ==> r.view.highlighted == a.view.highlighted
    ensures r.width == a.width
  {
    match a.view.dragging
    case Some(d) =>
      var a1 := SetPolling(a, false);
      var ox := Clamp(a1.view.ox, p.x - d.x, a1.view.rightLimit);
      a1.(view := a1.view.(dragged := true, ox := ox, dragging := Some(p)))
    case None => MouseOver(a, p)
  }

  /** The row label at `row`, or `undefined` outside the labels. */
  function LabelAt(labels: seq<string>, row: int): (l: Option<string>)
    ensures l.Some? <==> 0 <= row < |labels|
    ensures l.Some? ==> l.value == labels[row]
  {
    if 0 <= row < |labels| then Some(labels[row]) else None
  }

  /** Pointer release. The drag always ends. A release on a canvas without a
      drag is a click: it toggles polling when it hits the polling label and,
      in any case, navigates to the bucket under the pointer, shifted by the
      pan offset in force after the toggle. A release after a drag resumes
      polling when the grid is panned fully to the newest bucket. */
  function MouseUp(a: App, e: Release, toggle: Point): (r: (App, Option<Navigation>))
    ensures r.0.view.dragging.None? && !r.0.view.dragged
    ensures r.1.Some? <==> !a.view.dragged && e.onCanvas
    ensures !a.view.dragged && e.onCanvas ==>
      && r.0.model.polling == (a.model.polling != HitsToggle(e.at, toggle))
      && r.0.view.ox == (if HitsToggle(e.at, toggle) then -(RegionWidth - a.width) else a.view.ox)
      && var cell := CoordsToCell(Point(e.at.x - r.0.view.ox, e.at.y));
         var nav := r.1.value;
         && nav.pair == LabelAt(a.model.labels, cell.row)
         && nav.start == a.model.startTime + cell.column * a.model.bucketSize * 1000
         && nav.end - nav.start == a.model.bucketSize * 1000
    ensures !a.view.dragged && !e.onCanvas ==> r.0.model == a.model && r.0.view.ox == a.view.ox
    ensures a.view.dragged ==>
      && r.0.model.polling == (a.model.polling || Abs(a.view.ox) >= a.view.rightLimit)
      && (a.model.polling || Abs(a.view.ox) < a.view.rightLimit ==> r.0.view.ox == a.view.ox)
    ensures a.view.dragged && !a.model.polling && Abs(a.view.ox) >= a.view.rightLimit ==>
      r.0.view.ox == -(RegionWidth - a.width)
    ensures r.0.model == a.model.(polling := r.0.model.polling)
    ensures r.0.width == a.width && r.0.view.highlighted == a.view.highlighted
    ensures r.0.view.rightLimit ==
      (if r.0.model.polling != a.model.polling then RegionWidth - a.width else a.view.rightLimit)
  {
    var a0 := a.(view := a.view.(dragging := None));
    if !a.view.dragged then
      if e.onCanvas then
        var a1 := TogglePolling(a0, e.at, toggle);
        var cell := CoordsToCell(Point(e.at.x - a1.view.ox, e.at.y));
        var m := a1.model;
        var start := m.startTime + cell.column * m.bucketSize * 1000;
        var nav := Navigation(LabelAt(m.labels, cell.row), start, start + m.bucketSize * 1000);
        (a1.(view := a1.view.(dragged := false)), Some(nav))
      else (a0.(view := a0.view.(dragged := false)), None)
    else
      var a1 := if Abs(a.view.ox) >= a.view.rightLimit then SetPolling(a0, true) else a0;
      (a1.(view := a1.view.(dragged := false)), None)
  }

  /** Whether a pointer move, as written, is cut short by a redraw that
      throws: any drag step over a grid that cannot be drawn. */
  predicate MoveThrows(a: App) {
    !Drawable(a.model) && a.view.dragging.Some?
  }

  /** `mouseMove` as written. A drag step over a grid that cannot be drawn
      stops at the throw: with polling on, inside `stopPolling`'s redraw,
      after the offset reset but before `dragged` is set; with polling off,
      in the handler's own `drawGrid`, after the pan but before the drag
      point advances. Otherwise it is `MouseMove`. */
  function MouseMoveAsWritten(a: App, p: Point): (r: App)
    ensures !MoveThrows(a) ==> r == MouseMove(a, p)
    ensures MoveThrows(a) ==>
      && r.view.dragging == a.view.dragging
      && r.model == MouseMove(a, p).model
      && (a.model.polling ==> r == SetPolling(a, false) && r.view.dragged == a.view.dragged)
      && (!a.model.polling ==> r.view.dragged && r.view.ox == MouseMove(a, p).view.ox)
  {
    match a.view.dragging
    case Some(d) =>
      if Drawable(a.model) then MouseMove(a, p)
      else if a.model.polling then SetPolling(a, false)
      else a.(view := a.view.(dragged := true, ox := Clamp(a.view.ox, p.x - d.x, a.view.rightLimit)))
    case None => MouseMove(a, p)
  }

  /** Whether a release, as written, is cut short by a redraw that throws: a
      polling change over a grid that cannot be drawn, made by a click on the
      polling label or by a drag that ends at the newest bucket. */
  predicate UpThrows(a: App, e: Release, toggle: Point) {
    && !Drawable(a.model)
    && ((!a.view.dragged && e.onCanvas && HitsToggle(e.at, toggle))
        || (a.view.dragged && !a.model.polling && Abs(a.view.ox) >= a.view.rightLimit))
  }

  /** `mouseUp` as written. When the polling change throws, the click never
      navigates and `dragged` is never cleared; everything done before the
      throw (ending the drag, the polling flag, the redraw's offset reset)
      stands. Otherwise it is `MouseUp`. */
  function MouseUpAsWritten(a: App, e: Release, toggle: Point): (r: (App, Option<Navigation>))
    ensures !UpThrows(a, e, toggle) ==> r == MouseUp(a, e, toggle)
    ensures UpThrows(a, e, toggle) ==>
      && r.1.None?
      && var u := MouseUp(a, e, toggle).0;
         r.0 == u.(view := u.view.(dragged := a.view.dragged))
  {
    var a0 := a.(view := a.view.(dragging := None));
    if !Drawable(a.model) && !a.view.dragged && e.onCanvas && HitsToggle(e.at, toggle) then
      (TogglePolling(a0, e.at, toggle), None)
    else if !Drawable(a.model) && a.view.dragged && !a.model.polling && Abs(a.view.ox) >= a.view.rightLimit then
      (SetPolling(a0, true), None)
    else MouseUp(a, e, toggle)
  }

  /** Before the first poll answers, a drag delivered as a single move event
      is read as a click: that step throws before `dragged` is set, so the
      release navigates, here to the empty row 1, and polling stays off. */
  lemma DragBeforeFirstPollIsClick(hour: int, width: int)
    requires 0 <= width <= RegionWidth
    ensures var a1 := MouseMoveAsWritten(MouseDown(InitialApp(hour, width), Point(100, 100)), Point(80, 100));
      && !a1.view.dragged
      && var r := MouseUpAsWritten(a1, Release(true, Point(80, 100)), Point(700, 20));
         && r.1.Some? && r.1.value.pair.None?
         && !r.0.model.polling
  {
    var a := MouseDown(InitialApp(hour, width), Point(100, 100));
    assert !Drawable(a.model);
  }

  /** The same drag delivered as two move events is still a drag: the
      second step finds polling already off, so nothing fires `update`
      before `dragged` is set, and the release does not navigate. */
  lemma SlowDragBeforeFirstPollIsDrag(hour: int, width: int)
    requires 0 <= width <= RegionWidth
    ensures var a0 := MouseDown(InitialApp(hour, width), Point(100, 100));
      var a2 := MouseMoveAsWritten(MouseMoveAsWritten(a0, Point(90, 100)), Point(80, 100));
      && a2.view.dragged
      && MouseUpAsWritten(a2, Release(true, Point(80, 100)), Point(700, 20)).1.None?
  {
    var a0 := MouseDown(InitialApp(hour, width), Point(100, 100));
    assert !Drawable(a0.model);
  }

  /** The same gesture as the model intends it: the drag pans to the newest
      bucket, the release there resumes polling, and nothing navigates. */
  lemma DragBeforeFirstPollPans(hour: int, width: int)
    requires 0 <= width <= RegionWidth
    ensures var a1 := MouseMove(MouseDown(InitialApp(hour, width), Point(100, 100)), Point(80, 100));
      && a1.view.dragged
      && var r := MouseUp(a1, Release(true, Point(80, 100)), Point(700, 20));
         && r.1.None?
         && r.0.model.polling
         && r.0.view.ox == -(RegionWidth - width)
  {
  }

  /** The success of a bucket poll: merge the response, and redraw (scrolling
      to the newest bucket) when the matrix or the row count changed. */
  function ReceiveBuckets(a: App, resp: Response, start: int): (r: App)
    ensures r.model == Merge(a.model, resp, start)
    ensures r.model.buckets != a.model.buckets || r.model.maxRows != a.model.maxRows ==>
      r.view == Update(a).view
    ensures r.model.buckets == a.model.buckets && r.model.maxRows == a.model.maxRows ==>
      r.view == a.view
    ensures r.width == a.width
  {
    var m := Merge(a.model, resp, start);
    var a1 := a.(model := m);
    if m.buckets != a.model.buckets || m.maxRows != a.model.maxRows then Update(a1) else a1
  }

  /** The pan offset stays within the limits while the pointer drags over a
      sequence of points. */
  function DragThrough(a: App, ps: seq<Point>): App
    decreases |ps|
  {
    if ps == [] then a else DragThrough(MouseMove(a, ps[0]), ps[1..])
  }

  lemma {:induction false} DragStaysInLimits(a: App, ps: seq<Point>)
    requires a.view.dragging.Some?
    requires a.view.rightLimit >= 0 && a.width <= RegionWidth
    requires -a.view.rightLimit <= a.view.ox <= 0
    ensures var r := DragThrough(a, ps);
      -r.view.rightLimit <= r.view.ox <= 0 && r.view.dragging.Some?
    ensures ps != [] ==> DragThrough(a, ps).view.dragged && !DragThrough(a, ps).model.polling
    decreases |ps|
  {
    if ps != [] {
      var a' := MouseMove(a, ps[0]);
      DragStaysInLimits(a', ps[1..]);
      if ps[1..] != [] {
        DragPreservesFlags(a', ps[1..]);
      }
    }
  }

  /** The pan offset lies within its limits. */
  predicate PanInLimits(v: View) {
    v.rightLimit >= 0 && -v.rightLimit <= v.ox <= 0
  }

  /** A whole gesture (down, any moves, release) keeps the offset within its
      limits and ends the drag. A gesture with at least one move does not
      navigate, and afterwards polling is on exactly when the grid rests at
      the newest bucket. */
  lemma {:induction false} GestureKeepsPanInLimits(a: App, down: Point, ps: seq<Point>, e: Release, toggle: Point)
    requires PanInLimits(a.view) && a.width <= RegionWidth
    ensures var r := MouseUp(DragThrough(MouseDown(a, down), ps), e, toggle);
      && PanInLimits(r.0.view) && r.0.view.dragging.None? && !r.0.view.dragged
      && (ps != [] ==> r.1.None? && (r.0.model.polling <==> r.0.view.ox == -r.0.view.rightLimit))
  {
    var d := DragThrough(MouseDown(a, down), ps);
    DragStaysInLimits(MouseDown(a, down), ps);
    assert PanInLimits(d.view) && d.width == a.width by {
      DragKeepsWidth(MouseDown(a, down), ps);
    }
  }

  /** Drag moves never change the canvas width. */
  lemma {:induction false} DragKeepsWidth(a: App, ps: seq<Point>)
    ensures DragThrough(a, ps).width == a.width
    decreases |ps|
  {
    if ps != [] {
      DragKeepsWidth(MouseMove(a, ps[0]), ps[1..]);
    }
  }

  lemma {:induction false} DragPreservesFlags(a: App, ps: seq<Point>)
    requires a.view.dragging.Some? && a.view.dragged && !a.model.polling
    ensures DragThrough(a, ps).view.dragged && !DragThrough(a, ps).model.polling
    decreases |ps|
  {
    if ps != [] {
      DragPreservesFlags(MouseMove(a, ps[0]), ps[1..]);
    }
  }

  /** The router's handling of a navigation: the difference list shows the
      clicked pair and bucket from its first page. A missing pair reaches
      the router as the text "undefined". */
  function Route(d: Diffs.DiffsState, nav: Navigation): (r: (Diffs.DiffsState, Option<Diffs.DiffsRequest>))
    ensures r.0.range == Some(Diffs.Range(if nav.pair.Some? then nav.pair.value else UndefinedKey, nav.start, nav.end))
    ensures r.0.page == 0 && r.1.Some? && r.1.value.offset == 0
  {
    Diffs.Select(d, if nav.pair.Some? then nav.pair.value else UndefinedKey, nav.start, nav.end)
  }

  /** With hourly buckets, a click in column 5 selects the sixth hour of the
      window. */
  lemma ClickSelectsBucketHour(a: App, y: int)
    requires a.model.bucketSize == 3600 && a.view.ox == 0 && !a.view.dragged
    requires 0 <= y < LaneHeight && |a.model.labels| > 0
    ensures var r := MouseUp(a, Release(true, Point(5 * GridSize + 1, y)), Point(RegionWidth, 0));
      && r.1 == Some(Navigation(Some(a.model.labels[0]),
                                a.model.startTime + 5 * 3600 * 1000,
                                a.model.startTime + 6 * 3600 * 1000))
      && r.0.model.polling == a.model.polling
  {
  }

  /** Down at (100, 100), move to (80, 100), release: with polling off, the
      grid pans 20 pixels to the left and no navigation happens. */
  lemma DragScenario(a: App)
    requires !a.model.polling && a.width == 800
    requires a.view.rightLimit == RegionWidth - a.width && a.view.ox == -100
    ensures var a1 := MouseMove(MouseDown(a, Point(100, 100)), Point(80, 100));
      && a1.view.dragged && a1.view.ox == -120
      && var r := MouseUp(a1, Release(true, Point(80, 100)), Point(700, 20));
         r.1.None? && r.0.view.ox == -120 && !r.0.view.dragged && !r.0.model.polling
  {
  }
}

=== FILE: util.dfy ===
/** Small shared vocabulary: optional values (a JavaScript `undefined`/`null`),
    the `{value, limited}` record returned by both `limit` helpers, and
    duplicate-freedom and subsequences of sequences. */
module Util {

  /** `None` stands for a JavaScript `undefined` or `null`. */
  datatype Option<+T> = None | Some(value: T)

  /** The object `{"value": v, "limited": b}` that the `limit` helpers return. */
  datatype Limited<+T> = Limited(value: T, limited: bool)

  /** No element occurs twice. */
  predicate NoDup<T(==)>(s: seq<T>) {
    forall i, j :: 0 <= i < j < |s| ==> s[i] != s[j]
  }

  /** `r` is `s` with some entries left out and the rest in their order. */
  predicate IsSubsequence<T(==)>(r: seq<T>, s: seq<T>)
    decreases |s|
  {
    if r == [] then true
    else if s == [] then false
    else (r[0] == s[0] && IsSubsequence(r[1..], s[1..])) || IsSubsequence(r, s[1..])
  }

  function Max(a: int, b: int): int {
    if a < b then b else a
  }

  function Min(a: int, b: int): int {
    if a < b then a else b
  }

  function Abs(a: int): int {
    if a < 0 then -a else a
  }
}

=== FILE: viz.dfy ===
/** The blob-sizing helpers: the logarithmic transfer function from a bucket
    count to a blob size, and the clamp that reports whether it clamped.

    `Math.log` is not modelled as IEEE arithmetic: it is a parameter `log`
    over the reals, and the lemmas assume only what the transfer function
    relies on (`LogLike`). */
module Viz {
  import opened Util

  /** Anything non-zero at or below this is raised to `ValueFloor`. */
  const MinimumIn: real := 1.0
  /** The smallest size a non-empty bucket is drawn with. */
  const ValueFloor: real := 2.0
  /** The input that maps onto the maximum size. */
  const MaximumCutOff: real := 100.0

  /** What the transfer function needs of the logarithm: it vanishes at 1,
      is positive at the cut-off, and never decreases. */
  ghost predicate LogLike(log: real -> real) {
    && log(1.0) == 0.0
    && log(MaximumCutOff) > 0.0
    && forall x, y :: 0.0 < x <= y ==> log(x) <= log(y)
  }

  /** The size of a blob for a bucket value `size`, growing logarithmically
      from `ValueFloor` at 1 to `maximum` at `MaximumCutOff`, not capped above. */
  function TransformBucketSize(size: real, maximum: real, log: real -> real): (r: real)
    requires log(MaximumCutOff) > 0.0
    ensures size == 0.0 ==> r == 0.0
    ensures size != 0.0 && size <= MinimumIn ==> r == ValueFloor
    ensures size == MaximumCutOff ==> r == maximum
    ensures size > MinimumIn ==>
      (r - ValueFloor) * log(MaximumCutOff) == (maximum - ValueFloor) * log(size)
  {
    if size == 0.0 then 0.0
    else if size <= MinimumIn then ValueFloor
    else
      var a := ValueFloor;
      var b := (maximum - ValueFloor) / log(MaximumCutOff);
      a + b * log(size)
  }

  /** A non-negative factor preserves `<=`. */
  lemma ScaleMonotone(b: real, x: real, y: real)
    requires b >= 0.0 && x <= y
    ensures b * x <= b * y
  {
    assert b * y - b * x == b * (y - x);
  }

  /** Every non-zero input gets at least the floor size, negative ones included. */
  lemma TransformAtLeastFloor(size: real, maximum: real, log: real -> real)
    requires LogLike(log) && maximum >= ValueFloor
    requires size != 0.0
    ensures TransformBucketSize(size, maximum, log) >= ValueFloor
  {
    if size > MinimumIn {
      var b := (maximum - ValueFloor) / log(MaximumCutOff);
      assert b >= 0.0;
      assert log(1.0) <= log(size);
      ScaleMonotone(b, 0.0, log(size));
    }
  }

  /** On inputs of at least 1 the size never decreases as the input grows. */
  lemma TransformMonotone(s: real, t: real, maximum: real, log: real -> real)
    requires LogLike(log) && maximum >= ValueFloor
    requires MinimumIn <= s <= t
    ensures TransformBucketSize(s, maximum, log) <= TransformBucketSize(t, maximum, log)
  {
    if s > MinimumIn {
      var b := (maximum - ValueFloor) / log(MaximumCutOff);
      assert b >= 0.0;
      assert log(s) <= log(t);
      ScaleMonotone(b, log(s), log(t));
      calc {
        TransformBucketSize(s, maximum, log);
        ValueFloor + b * log(s);
      <= ValueFloor + b * log(t);
        TransformBucketSize(t, maximum, log);
      }
    } else {
      TransformAtLeastFloor(t, maximum, log);
    }
  }

  /** Inputs beyond the cut-off are not capped by the transfer function
      itself: their size is at least `maximum`. */
  lemma TransformUncapped(size: real, maximum: real, log: real -> real)
    requires LogLike(log) && maximum >= ValueFloor
    requires size > MaximumCutOff
    ensures TransformBucketSize(size, maximum, log) >= maximum
  {
    TransformMonotone(MaximumCutOff, size, maximum, log);
  }

  /** Clamp `value` to `maximum`, reporting whether clamping happened. */
  function Limit(value: real, maximum: real): (r: Limited<real>)
    ensures r.value <= value && r.value <= maximum
    ensures r.value == value || r.value == maximum
    ensures r.limited <==> value > maximum
  {
    if value <= maximum then Limited(value, false) else Limited(maximum, true)
  }

  /** Clamping an already clamped value changes nothing and reports no clamp. */
  lemma LimitIdempotent(value: real, maximum: real)
    ensures Limit(Limit(value, maximum).value, maximum)
         == Limited(Limit(value, maximum).value, false)
  {
  }
}

=== FILE: zoom.dfy ===
/** The zoom controls: the guards on the bucket width and the `+` / `-`
    keyboard shortcuts that consult them. (The zoom buttons call the model's
    zoom directly, without a guard.) */
module ZoomControls {
  import opened Util
  import opened Blobs

  /** The widest bucket the keyboard zooms out to: six months, in seconds. */
  const MaxBucketSize: int := 180 * 24 * 3600

  /** Buckets cannot be made narrower than one second: a permitted zoom in
      strictly narrows the buckets and keeps them at least one second wide,
      and a refused one leaves a width of at most one second. */
  predicate ShouldAllowMoreZoomIn(m: BlobsModel): (allowed: bool)
    ensures allowed ==> 1 <= ZoomIn(m, 0).0.bucketSize < m.bucketSize
    ensures !allowed ==> m.bucketSize <= 1
  {
    m.bucketSize > 1
  }

  /** Buckets cannot be made wider than six months: a permitted zoom out of a
      positive width stays below twice the guard, and a refused one leaves a
      width of at least six months. */
  predicate ShouldAllowMoreZoomOut(m: BlobsModel): (allowed: bool)
    ensures allowed && m.bucketSize > 0 ==> m.bucketSize < ZoomOut(m, 0).0.bucketSize < 2 * MaxBucketSize
    ensures !allowed ==> m.bucketSize >= MaxBucketSize
  {
    m.bucketSize < MaxBucketSize
  }

  datatype Key = Plus | Minus | OtherKey

  /** The keypress handler: `+` zooms in and `-` zooms out, each only when
      its guard allows; any zoom issues a sync at once. */
  function KeyPress(m: BlobsModel, key: Key, hour: int): (r: (BlobsModel, Option<SyncRequest>))
    ensures r.1.Some? <==> (key == Plus && m.bucketSize > 1) || (key == Minus && m.bucketSize < MaxBucketSize)
    ensures r.1.None? ==> r.0 == m
    ensures r.1.Some? ==> r.0 == m.(bucketSize := r.0.bucketSize) && r.1.value.bucketing == r.0.bucketSize
    ensures r.1.Some? && key == Plus ==> r.0.bucketSize < m.bucketSize
    ensures r.1.Some? && key == Minus && m.bucketSize > 0 ==> r.0.bucketSize > m.bucketSize
    ensures key == Plus && r.1.Some? ==> r == (ZoomIn(m, hour).0, Some(ZoomIn(m, hour).1))
    ensures key == Minus && r.1.Some? ==> r == (ZoomOut(m, hour).0, Some(ZoomOut(m, hour).1))
  {
    match key
    case Plus =>
      if ShouldAllowMoreZoomIn(m) then var z := ZoomIn(m, hour); (z.0, Some(z.1)) else (m, None)
    case Minus =>
      if ShouldAllowMoreZoomOut(m) then var z := ZoomOut(m, hour); (z.0, Some(z.1)) else (m, None)
    case OtherKey => (m, None)
  }

  /** Under the keyboard alone the bucket width stays between one second and
      twice the six-month guard. */
  lemma {:induction false} KeyboardZoomStaysBounded(m: BlobsModel, keys: seq<Key>, hour: int)
    requires 1 <= m.bucketSize < 2 * MaxBucketSize
    ensures 1 <= KeySequence(m, keys, hour).bucketSize < 2 * MaxBucketSize
    decreases |keys|
  {
    if keys != [] {
      var m' := KeyPress(m, keys[0], hour).0;
      assert 1 <= m'.bucketSize < 2 * MaxBucketSize;
      KeyboardZoomStaysBounded(m', keys[1..], hour);
    }
  }

  /** The model after a sequence of keypresses. */
  function KeySequence(m: BlobsModel, keys: seq<Key>, hour: int): BlobsModel
    decreases |keys|
  {
    if keys == [] then m else KeySequence(KeyPress(m, keys[0], hour).0, keys[1..], hour)
  }
}
